=== FILE: README.md ===
# String mismatch check — a Dafny model

This project models the `StringMismatch` check of deepchecks' tabular data-integrity suite. The check finds values of a string column that are spellings of one category, such as `"OK"`, `"ok."` and `"Ok!"`. Two values belong to one category when they have the same *base form*, which is the value normalised by ignoring case and non-letter characters.

The model covers:

- **Detection** (`run_logic`). For every string column of the sampled frame, the column's distinct values are grouped by base form. Each base form with more than one variant is reported, with one record per variant holding the variant, its number of rows, and its share of the column's rows. Every string column gets an entry, even when nothing is reported for it.
- **Reduction** (`reduce_output`). Each string column gets one score: the number of rows holding a reported variant, divided by `n_samples`.
- **Conditions.**
  - The variants-number condition warns when some base form has more than `num_max_variants` variants. `add_condition_no_variants` registers it with threshold 0.
  - The ratio condition fails when the shares of a column's variants add up to more than `max_ratio`.
- **Fix** (`fix_logic`). In every reported column, each variant is rewritten to the most common variant of its base form. The context then receives a new dataset holding the rewritten copy.
- **The check object.** Its configuration, and the registry that the `add_condition_*` methods append to.

The main properties proved are:

- `run_logic` returns a complete and exact mismatch report for each string column: `Detection.IsDetectionOf`, shown by `Detection.DetectIsDetection`.
- On a detected value, the ratio condition fails exactly when a `reduce_output` score exceeds the bound.
- Every score lies in [0, 1], and a score is 0 exactly when its column has no variants.
- The fix succeeds on the value the check reports, sends every variant to its group's most common variant, leaves every other cell alone. When the sample holds every row of the dataset, the fix also leaves a frame on which the check finds no variants.

The base-form normaliser (`get_base_form_to_variants_dict`'s key function) and `is_string_column` are parameters of the model: `bf: string -> string` and `isString: seq<string> -> bool`. Their code is not part of this model. A data frame is the already sampled and column-selected table, given as a `Frame`. The fix is applied to that same `Frame`. Python's insertion-ordered dictionaries are sequences in the model, and float shares are `real`.

Modules, one file each:

| file | module | models |
|---|---|---|
| `seqs.dfy` | `Seqs` | value counts, `unique()`, filtering by key, `islice` |
| `report.dfy` | `MismatchReport` | the frame and the check's result dictionary |
| `detection.dfy` | `Detection` | `run_logic` |
| `reduction.dfy` | `Reduction` | `reduce_output` |
| `conditions.dfy` | `Conditions` | `_condition_variants_number` and the ratio condition |
| `fix.dfy` | `Fix` | `fix_logic` |
| `check.dfy` | `StringMismatchCheck` | the check object and its condition registry |

## Model


| member | source | states |
|---|---|---|
| Detection.Record | deepchecks/tabular/checks/data_integrity/string_mismatch.py:102-107 | the record of a variant holds that variant, its number of rows in the column, and that count over the column length, which is a share in (0, 1] |
| Detection.BaseFormGroupsSound | deepchecks/tabular/checks/data_integrity/string_mismatch.py:96-97 | grouping the distinct values by base form gives non-empty, duplicate-free groups, each holding exactly the values with its base form, with no base form twice |
| Detection.BaseFormGroupsComplete | deepchecks/tabular/checks/data_integrity/string_mismatch.py:96-97 | every distinct value lies in the group of its own base form |
| Detection.GroupFromGrouping | deepchecks/tabular/checks/data_integrity/string_mismatch.py:101-107 | a grouping with at least two distinct members becomes a variant group whose records count each variant's rows |
| Detection.MismatchGroupsSound | deepchecks/tabular/checks/data_integrity/string_mismatch.py:98-107 | base forms with a single variant are skipped; every other base form is reported once as a variant group, and nothing else is reported |
| Detection.ColumnGroupsIsReport | deepchecks/tabular/checks/data_integrity/string_mismatch.py:94-107 | a column's report is complete and exact: every base form shared by two distinct values is reported, and every reported group lists exactly those values with their counts and shares |
| Detection.ColumnsSound | deepchecks/tabular/checks/data_integrity/string_mismatch.py:89-94 | exactly the string columns get an entry, once each, each holding its column's complete report |
| Detection.MismatchGroupsInOrder | deepchecks/tabular/checks/data_integrity/string_mismatch.py:98-101 | the reported base forms are the groupings with at least two variants, in the order of the groupings |
| Detection.ColumnsInFrameOrder | deepchecks/tabular/checks/data_integrity/string_mismatch.py:89-94 | the entries are the string columns among the given names, in the order of the names |
| Detection.DetectInFrameOrder | deepchecks/tabular/checks/data_integrity/string_mismatch.py:87-94 | the result's columns are the frame's string columns, in frame order |
| Detection.DetectIsDetection | deepchecks/tabular/checks/data_integrity/string_mismatch.py:87-107 | the reported value is a detection of the frame: `n_samples` is the row count, and each string column has a complete mismatch report |
| Detection.VariantRecords | deepchecks/tabular/checks/data_integrity/string_mismatch.py:102-107 | the variant loop builds one record per variant, in order, each with the variant's row count and share |
| Detection.ColumnMismatches | deepchecks/tabular/checks/data_integrity/string_mismatch.py:94-107 | the base-form loop for one string column builds the column's report, which is a complete mismatch report of the column |
| Detection.RunLogic | deepchecks/tabular/checks/data_integrity/string_mismatch.py:87-107 | the nested loops over columns, base forms and variants build exactly `Detect`, which is a detection of the frame |
| Reduction.ReduceOutput | deepchecks/tabular/checks/data_integrity/string_mismatch.py:124-136 | `reduce_output` raises the division error exactly when there is a column and `n_samples` is 0; with no column it gives an empty series; otherwise one non-negative score per column, in column order |
| Reduction.RecordsCountIsSumCounts | deepchecks/tabular/checks/data_integrity/string_mismatch.py:129 | a base form's summed counts are the rows holding one of its variants |
| Reduction.GroupsCountIsSumCounts | deepchecks/tabular/checks/data_integrity/string_mismatch.py:129-131 | a column's `total_mismatched` is the sum, over its reported variants, of each variant's number of rows; the variants are distinct (`Reduction.AllVariantNamesDistinct`) |
| Reduction.AllVariantNamesDistinct | deepchecks/tabular/checks/data_integrity/string_mismatch.py:129-131 | no variant is counted under two base forms of a column, so no row is counted twice |
| Reduction.RecordsCountPositive | deepchecks/tabular/checks/data_integrity/string_mismatch.py:129 | a reported base form accounts for at least one row |
| Reduction.GroupsCountPositive | deepchecks/tabular/checks/data_integrity/string_mismatch.py:129-131 | a column with a reported base form has at least one mismatched row |
| Reduction.ReportCountBounded | deepchecks/tabular/checks/data_integrity/string_mismatch.py:129-131 | `total_mismatched` never exceeds the column length, and is 0 exactly when nothing is reported |
| Reduction.ReportScoreBounded | deepchecks/tabular/checks/data_integrity/string_mismatch.py:135 | a column's mismatch ratio lies in [0, 1] and is 0 exactly when nothing is reported |
| Reduction.DetectedScores | deepchecks/tabular/checks/data_integrity/string_mismatch.py:124-136 | `reduce_output` raises the division error exactly when a frame without rows has a string column; otherwise it gives one score per string column, in order, in [0, 1], and 0 exactly for a column without variants |
| Conditions.FailingForms | deepchecks/tabular/checks/data_integrity/string_mismatch.py:223-224 | every listed base form is a reported base form with more than `num_max_variants` variants, and the list is empty exactly when no base form exceeds the threshold |
| Conditions.FailingFormsListsAll | deepchecks/tabular/checks/data_integrity/string_mismatch.py:223-224 | every reported base form with more than `num_max_variants` variants is listed |
| Conditions.NotPassingVariants | deepchecks/tabular/checks/data_integrity/string_mismatch.py:221-226 | every entry of the `not_passing_variants` dictionary belongs to a column with a failing base form and lists the first `max_forms_to_show` failing base forms of that column; the dictionary is empty exactly when no column has a failing base form |
| Conditions.NotPassingVariantsListsAll | deepchecks/tabular/checks/data_integrity/string_mismatch.py:221-226 | every column with a failing base form has its entry, listing the first `max_forms_to_show` of them |
| Conditions.ColumnFailingForms | deepchecks/tabular/checks/data_integrity/string_mismatch.py:223-226 | the base-form loop for one column decides that the column gets an entry exactly when one of its base forms has too many variants, and collects the first `max_forms_to_show` of those base forms |
| Conditions.VariantsNumberMeaning | deepchecks/tabular/checks/data_integrity/string_mismatch.py:220-233 | the condition warns exactly when some base form has more than `num_max_variants` variants, and passes otherwise; a warning reports found ≥ 1 out of all the columns, at most `max_cols_to_show` columns shown, and at most `max_forms_to_show` failing base forms per shown column |
| Conditions.PassedMessageAsWrittenMiscounts | deepchecks/tabular/checks/data_integrity/string_mismatch.py:233 | as written, the "passed" message counts one column for a result without any column; the corrected condition counts none (see Findings) |
| Conditions.ConditionVariantsNumber | deepchecks/tabular/checks/data_integrity/string_mismatch.py:220-233 | the loop computes the corrected condition: WARN exactly when some base form has too many variants, PASS otherwise |
| Conditions.FailingColumns | deepchecks/tabular/checks/data_integrity/string_mismatch.py:166-172 | every entry of the `not_passing_columns` dictionary is a column whose summed variant shares exceed `max_ratio`, paired with that sum, and the dictionary is empty exactly when no column exceeds it |
| Conditions.FailingColumnsListsAll | deepchecks/tabular/checks/data_integrity/string_mismatch.py:166-172 | every column whose summed variant shares exceed `max_ratio` is listed with that sum |
| Conditions.ConditionRatio | deepchecks/tabular/checks/data_integrity/string_mismatch.py:165-178 | the ratio condition FAILs exactly when some column's variant shares add up to more than `max_ratio`, reporting found ≥ 1 out of all the columns and listing every failing column with its sum, and PASSes otherwise with the result's columns |
| Conditions.RecordsPercentIsShare | deepchecks/tabular/checks/data_integrity/string_mismatch.py:170 | summing shares taken over `n_samples` gives the summed counts over `n_samples` |
| Conditions.PercentSumIsShare | deepchecks/tabular/checks/data_integrity/string_mismatch.py:168-170 | a column's `variants_percent_sum` is its `total_mismatched` over `n_samples` |
| Conditions.RatioFailsIffScoreAbove | deepchecks/tabular/checks/data_integrity/string_mismatch.py:124-181 | when every share is taken over `n_samples`, the ratio condition fails exactly when some `reduce_output` score exceeds `max_ratio` |
| Conditions.DetectedSharesOfSamples | deepchecks/tabular/checks/data_integrity/string_mismatch.py:87-104 | every share `run_logic` reports is the variant's count over `n_samples` |
| Fix.MostCommonIndex | deepchecks/tabular/checks/data_integrity/string_mismatch.py:190-191 | the chosen record has the highest share, and every record before it has a strictly lower share: the head of a stable descending sort |
| Fix.MostCommonIsVariant | deepchecks/tabular/checks/data_integrity/string_mismatch.py:190-192 | the most common variant is one of the group's variants |
| Fix.CanonicalOfMember | deepchecks/tabular/checks/data_integrity/string_mismatch.py:193 | when groups share no variant, a variant of a group ends as that group's most common variant |
| Fix.CanonicalOfNonMember | deepchecks/tabular/checks/data_integrity/string_mismatch.py:193 | a value in no group ends unchanged |
| Fix.FixGroupsCanonical | deepchecks/tabular/checks/data_integrity/string_mismatch.py:189-193 | rewriting separate groups one after the other sends each cell of the column to its canonical value and touches no other column |
| Fix.FixColumnsCanonical | deepchecks/tabular/checks/data_integrity/string_mismatch.py:188-193 | on a fixable report the fix succeeds, keeps the column set, leaves unreported columns alone, and makes reported columns canonical |
| Fix.FixRewritesVariants | deepchecks/tabular/checks/data_integrity/string_mismatch.py:186-193 | the fix keeps every column and its length; every cell holding a variant of a reported base form becomes that base form's most common variant, and every other cell is unchanged |
| Fix.ReportIsSeparate | deepchecks/tabular/checks/data_integrity/string_mismatch.py:96-107 | distinct reported base forms of a column share no variant, so the sequential rewrites do not interfere |
| Fix.DetectedIsFixable | deepchecks/tabular/checks/data_integrity/string_mismatch.py:183-193 | the value the check reports for a frame names existing columns, once each, with non-empty separate groups |
| Fix.CanonicalMerges | deepchecks/tabular/checks/data_integrity/string_mismatch.py:193 | two values of a column with the same base form end as the same value, with that base form |
| Fix.CanonicalColumnHasNoVariants | deepchecks/tabular/checks/data_integrity/string_mismatch.py:193 | after the rewrite, no two distinct values of the column share a base form |
| Fix.GroupsHaveTwoVariants | deepchecks/tabular/checks/data_integrity/string_mismatch.py:98-101 | a column with a reported base form holds two distinct values with that base form |
| Fix.NoVariantsNoGroups | deepchecks/tabular/checks/data_integrity/string_mismatch.py:98-101 | a column in which no two distinct values share a base form gets an empty report |
| Fix.FixedColumnClean | deepchecks/tabular/checks/data_integrity/string_mismatch.py:188-193 | each reported column of the fixed data gets an empty report |
| Fix.FixLeavesNoVariants | deepchecks/tabular/checks/data_integrity/string_mismatch.py:183-196 | fixing a frame with its own report succeeds, keeps the frame well formed, and running the check again reports no base form in any column (the automatic solution of lines 214-217) |
| Fix.FixGroupsErrSticks | deepchecks/tabular/checks/data_integrity/string_mismatch.py:189-193 | the first exception raised for a column is the one the whole column loop raises |
| Fix.FixColumnsErrSticks | deepchecks/tabular/checks/data_integrity/string_mismatch.py:188-193 | the first exception raised by a column is the one the fix raises |
| Fix.FixColumn | deepchecks/tabular/checks/data_integrity/string_mismatch.py:189-193 | the base-form loop computes `FixGroups`, raising IndexError on an empty group and KeyError on a missing column |
| Fix.FixAllColumns | deepchecks/tabular/checks/data_integrity/string_mismatch.py:188-193 | the column loop computes `FixColumns`, stopping at the first exception |
| Fix.FixLogic | deepchecks/tabular/checks/data_integrity/string_mismatch.py:183-196 | a missing dataset kind and an exception of the loop leave the context unchanged; otherwise only the dataset of that kind is replaced, by a new dataset whose frame is the old one with the fixed cells |
| Fix.Dataset.constructor | deepchecks/tabular/checks/data_integrity/string_mismatch.py:195 | a dataset copy holds the given frame |
| Fix.Context.constructor | deepchecks/tabular/checks/data_integrity/string_mismatch.py:185-195 | a context holds the given datasets by kind |
| StringMismatchCheck.StringMismatch.constructor | deepchecks/tabular/checks/data_integrity/string_mismatch.py:59-75 | stores the configuration with the source's defaults, and starts without conditions |
| StringMismatchCheck.StringMismatch.AddConditionNumberVariantsLessOrEqual | deepchecks/tabular/checks/data_integrity/string_mismatch.py:140-149 | appends the variants-number condition with the given threshold, and returns the check itself |
| StringMismatchCheck.StringMismatch.AddConditionNoVariants | deepchecks/tabular/checks/data_integrity/string_mismatch.py:151-154 | appends the variants-number condition with threshold 0, and returns the check itself |
| StringMismatchCheck.StringMismatch.AddConditionRatioVariantsLessOrEqual | deepchecks/tabular/checks/data_integrity/string_mismatch.py:156-181 | appends the ratio condition with the given bound (default 0.01), and returns the check itself |
| StringMismatchCheck.Evaluate | deepchecks/tabular/checks/data_integrity/string_mismatch.py:140-181 | a registered condition is evaluated with its own threshold and the display defaults of 5 columns and 5 base forms: a variants-number condition warns exactly when some base form has too many variants, showing at most 5 columns and 5 base forms each, and passes otherwise; a ratio condition fails exactly when some column's shares exceed its bound, and passes otherwise |
| StringMismatchCheck.NoVariantsWarnsIffReported | deepchecks/tabular/checks/data_integrity/string_mismatch.py:151-154 | on a detected value, "no string variants" warns exactly when some column has a reported base form, and passes exactly when none has |
| StringMismatchCheck.DetectedRatioFailsIffScoreAbove | deepchecks/tabular/checks/data_integrity/string_mismatch.py:156-181 | on a detected value of a frame with rows, the registered ratio condition fails exactly when some `reduce_output` score exceeds its bound |
| StringMismatchCheck.ExampleDetect | deepchecks/tabular/checks/data_integrity/string_mismatch.py:89-107 | for the column `["OK", "ok.", "ok", "NO"]`, the three spellings of "ok" are reported with one row and a 25% share each, and "NO" is skipped as a single variant |
| StringMismatchCheck.ExampleFix | deepchecks/tabular/checks/data_integrity/string_mismatch.py:188-193 | the fix rewrites that column to `["OK", "OK", "OK", "NO"]`: on a tie in share the first spelling wins |
| StringMismatchCheck.OkExample | deepchecks/tabular/checks/data_integrity/string_mismatch.py:140-154 | on that column, under the letters-only lower-case base form, "no string variants" gives WARN and "at most 3 variants" gives PASS; the fix leaves two distinct values |

## Left out

- Sampling and column selection (lines 79-81: `dataset.sample`, `select_from_dataframe` with `columns` and `ignore_columns`) are not modelled. The model starts from the selected sample as a `Frame`. The check object stores `columns`, `ignore_columns`, `n_samples` and `random_state` but does not use them, and a single column name (not in a list) is not modelled.
- The display is not modelled: the rows collected at lines 108-109, the graph of lines 111-120, `n_top_columns`, and the feature-importance sorting. This is output formatting only.
- The `feature_importance` entry of the result (lines 83-84, 87) is not modelled. Neither is `feature_reduce` with `aggregation_method` (line 137): `Reduction.ReduceOutput` stops at the per-column series that is handed to it.
- The base-form normaliser and `is_string_column` are parameters, because their code (in `deepchecks/utils/strings.py`) is not part of this model. `get_base_form_to_variants_dict` groups variants in sets, so their order in the source depends on hashing. The model fixes first-appearance order. That order decides the order of each base form's records in the reported value. Through the stable sort, it also decides which variant `fix_logic` picks on a tie in share. `Detection.IsMismatchReport` and `Detection.IsDetectionOf` do not depend on it. `Detection.RunLogic`'s equality with `Detection.Detect` and `StringMismatchCheck.ExampleDetect` hold only for the model's order. Python randomises string hashing per process, so in the source the record order and the tie-break may differ between runs on the same input.
- Detection.Record: shares are exact `real` quotients rather than floats. Float rounding in shares, in their sums, and in the comparison with `max_ratio` is not modelled.
- Cells are strings. Missing values (NaN) and non-string cells of a string column are not modelled, nor is how `value_counts` drops NaN while `unique` keeps it.
- Condition names and details texts (`format_percent`, the f-strings, `get_condition_passed_message`) are kept as the structured data they are formatted from.
- The variants-number condition returns WARN (line 231), not FAIL, including when it is registered by `add_condition_no_variants`. The model follows the code.
- The constructor (lines 59-75) only stores its arguments. It does not reject `columns` and `ignore_columns` given together, so the model does not either.
- `reduce_output` divides by `n_samples` for every string column (line 135). A sample without rows that has a string column therefore raises ZeroDivisionError instead of scoring 0. `Reduction.ReduceOutput` models this as `Err(DivisionByZero)`.
- Negative `max_cols_to_show` and `max_forms_to_show` are not modelled: these are `nat`. No registration passes either argument (lines 149 and 154 keep the defaults of 5). In the source, a negative `max_cols_to_show` makes `islice` raise ValueError on the WARN path (line 228). A negative `max_forms_to_show` never passes the test at line 225, so each failing column still gets its entry, but with no base forms listed, and the condition still warns.
- Duplicate column names in a frame are not modelled (`Frame.Valid` requires distinct names).
- Evaluating the registered conditions is not modelled: that is the framework's `conditions_decision`, which is not part of this model. `StringMismatchCheck.Evaluate` gives the result of one registered condition.
- The `fix_params` and description properties (lines 198-217) are constant texts. They are not modelled, except that `Fix.FixLeavesNoVariants` proves the automatic solution that lines 214-217 describe.
- Fix.FixLeavesNoVariants: the lemma fixes a frame with the report of that same frame. In the source, detection reads a sample of at most `n_samples` rows (line 80), while `fix_logic` rewrites the whole of `dataset.data` (line 186). A spelling that occurs only in unsampled rows is therefore not rewritten. The sample `["OK", "ok"]` fixed onto the full column `["OK", "ok", "Ok!"]` gives `["OK", "OK", "Ok!"]`, which still has two spellings of "ok". The lemma thus covers only a dataset no larger than `n_samples`, whose sample holds every row.
- Fix.FixLogic: the new dataset keeps every property of the old frame except its cells, which is all of the dataset the model has. Other dataset attributes that `dataset.copy` carries are not modelled.

## Findings

| source | as written | input that shows it | evidently intended | confidence | as-written member | corrected member |
|---|---|---|---|---|---|---|
| deepchecks/tabular/checks/data_integrity/string_mismatch.py:233 | the PASS message of `_condition_variants_number` is built from the literal one-element list `['columns']`, so it always describes one relevant column | a result with no string column (`{'n_samples': 0, 'columns': {}}`) passes with a message about 1 column; one with three columns and no variants also reports 1 | build the message from `result['columns']`, as the ratio condition does at line 178 | high, not executed | Conditions.VariantsNumberAsWritten, Conditions.PassedMessageAsWrittenMiscounts | Conditions.VariantsNumber |

=== FILE: check.dfy ===
/**
 The `StringMismatch` check object: its configuration and its registry of
 conditions. Each `add_condition_*` method appends a condition that binds
 its threshold at registration time; a registered condition is evaluated
 against the check's value by `Evaluate`.
 */
module StringMismatchCheck {
  import opened Seqs
  import opened MismatchReport
  import opened Detection
  import opened Reduction
  import opened Conditions
  import opened Fix

  /** The name a condition is registered under; its rendering as text is not modelled. */
  datatype ConditionName =
    | NumberOfVariantsAtMost(numMaxVariants: int)   // "Number of string variants is less or equal to {n}"
    | NoStringVariants                              // "No string variants"
    | RatioOfVariantsAtMost(maxRatio: real)         // "Ratio of variants is less or equal to {ratio}"

  /** The predicate of a condition together with its bound keyword arguments. */
  datatype ConditionPredicate =
    | VariantsNumberPredicate(numMaxVariants: int)
    | VariantsRatioPredicate(maxRatio: real)

  datatype Condition = Condition(name: ConditionName, rule: ConditionPredicate)

  /** Defaults of `_condition_variants_number` that no registration overrides. */
  const MaxColsToShow: nat := 5
  const MaxFormsToShow: nat := 5

  /** The result of a registered condition on a check value. */
  function Evaluate(c: Condition, value: CheckValue): (r: ConditionResult)
    ensures c.rule.VariantsNumberPredicate? ==>
      && (r.category == Warn <==> HasTooManyVariants(value, c.rule.numMaxVariants))
      && (r.category == Pass <==> !HasTooManyVariants(value, c.rule.numMaxVariants))
      && (r.category == Warn ==>
            && r.details.VariantsAboveThreshold?
            && |r.details.shown| <= MaxColsToShow
            && (forall k :: 0 <= k < |r.details.shown| ==> |r.details.shown[k].1| <= MaxFormsToShow))
    ensures c.rule.VariantsRatioPredicate? ==>
      && (r.category == Fail <==> HasRatioAbove(value, c.rule.maxRatio))
      && (r.category == Pass <==> !HasRatioAbove(value, c.rule.maxRatio))
  {
    match c.rule
    case VariantsNumberPredicate(n) =>
      VariantsNumberMeaning(value, n, MaxColsToShow, MaxFormsToShow);
      VariantsNumber(value, n, MaxColsToShow, MaxFormsToShow)
    case VariantsRatioPredicate(m) => VariantsRatio(value, m)
  }

  class StringMismatch {
    const columns: Option<seq<string>>
    const ignoreColumns: Option<seq<string>>
    const nTopColumns: int
    const aggregationMethod: Option<string>
    const nSamples: int
    const randomState: int
    /** The registered conditions, in registration order. */
    var conditions: seq<Condition>

    /** Stores the configuration; no condition is registered yet. */
    constructor (columns: Option<seq<string>> := None, ignoreColumns: Option<seq<string>> := None,
                 nTopColumns: int := 10, aggregationMethod: Option<string> := Some("max"),
                 nSamples: int := 1000000, randomState: int := 42)
      ensures this.columns == columns && this.ignoreColumns == ignoreColumns
      ensures this.nTopColumns == nTopColumns && this.aggregationMethod == aggregationMethod
      ensures this.nSamples == nSamples && this.randomState == randomState
      ensures conditions == []
    {
      this.columns := columns;
      this.ignoreColumns := ignoreColumns;
      this.nTopColumns := nTopColumns;
      this.aggregationMethod := aggregationMethod;
      this.nSamples := nSamples;
      this.randomState := randomState;
      conditions := [];
    }

    /** Registers the variants-number condition with threshold `numMaxVariants`; returns the check for chaining. */
    method AddConditionNumberVariantsLessOrEqual(numMaxVariants: int) returns (self: StringMismatch)
      modifies this
      ensures self == this
      ensures conditions == old(conditions) + [Condition(NumberOfVariantsAtMost(numMaxVariants), VariantsNumberPredicate(numMaxVariants))]
    {
      conditions := conditions + [Condition(NumberOfVariantsAtMost(numMaxVariants), VariantsNumberPredicate(numMaxVariants))];
      self := this;
    }

    /** Registers the variants-number condition with threshold 0; returns the check for chaining. */
    method AddConditionNoVariants() returns (self: StringMismatch)
      modifies this
      ensures self == this
      ensures conditions == old(conditions) + [Condition(NoStringVariants, VariantsNumberPredicate(0))]
    {
      conditions := conditions + [Condition(NoStringVariants, VariantsNumberPredicate(0))];
      self := this;
    }

    /** Registers the ratio condition with bound `maxRatio`; returns the check for chaining. */
    method AddConditionRatioVariantsLessOrEqual(maxRatio: real := 0.01) returns (self: StringMismatch)
      modifies this
      ensures self == this
      ensures conditions == old(conditions) + [Condition(RatioOfVariantsAtMost(maxRatio), VariantsRatioPredicate(maxRatio))]
    {
      conditions := conditions + [Condition(RatioOfVariantsAtMost(maxRatio), VariantsRatioPredicate(maxRatio))];
      self := this;
    }
  }

  /*
   * Lemmas
   */

  /** On a detected value, the "no variants" condition warns exactly when some base form is reported. */
  lemma NoVariantsWarnsIffReported(f: Frame, isString: seq<string> -> bool, bf: string -> string)
    requires f.Valid()
    ensures var value := Detect(f, isString, bf);
      && (Evaluate(Condition(NoStringVariants, VariantsNumberPredicate(0)), value).category == Warn <==>
            exists i :: 0 <= i < |value.columns| && value.columns[i].groups != [])
      && (Evaluate(Condition(NoStringVariants, VariantsNumberPredicate(0)), value).category == Pass <==>
            forall i :: 0 <= i < |value.columns| ==> value.columns[i].groups == [])
  {
    var value := Detect(f, isString, bf);
    DetectIsDetection(f, isString, bf);
    if exists i :: 0 <= i < |value.columns| && value.columns[i].groups != [] {
      var i :| 0 <= i < |value.columns| && value.columns[i].groups != [];
      var c := value.columns[i];
      assert IsMismatchReport(f.cells[c.name], bf, c.groups);
      assert IsVariantGroup(f.cells[c.name], bf, c.groups[0]);
      assert HasTooManyVariants(value, 0);
    }
  }

  /**
   On a detected value of a frame with rows, the ratio condition fails exactly
   when some column's `reduce_output` score exceeds `maxRatio`.
   */
  lemma DetectedRatioFailsIffScoreAbove(f: Frame, isString: seq<string> -> bool, bf: string -> string, maxRatio: real)
    requires f.Valid() && f.rows > 0
    ensures var value := Detect(f, isString, bf);
      && ReduceOutput(value).Ok?
      && (Evaluate(Condition(RatioOfVariantsAtMost(maxRatio), VariantsRatioPredicate(maxRatio)), value).category == Fail <==>
            exists i :: 0 <= i < |ReduceOutput(value).value| && ReduceOutput(value).value[i].1 > maxRatio)
  {
    DetectedSharesOfSamples(f, isString, bf);
    RatioFailsIffScoreAbove(Detect(f, isString, bf), maxRatio);
  }

  /*
   * Example
   */

  /** A base form: letters only, lower-cased. */
  function LettersLower(s: string): (b: string)
    ensures |b| <= |s|
    ensures forall k :: 0 <= k < |b| ==> 'a' <= b[k] <= 'z'
  {
    if s == [] then []
    else
      var c := s[0];
      var rest := LettersLower(s[1..]);
      if 'A' <= c <= 'Z' then [(c as int + 32) as char] + rest
      else if 'a' <= c <= 'z' then [c] + rest
      else rest
  }

  const ExampleColumn: seq<string> := ["OK", "ok.", "ok", "NO"]

  /** The three spellings of "ok", recorded with one row and a quarter of the rows each. */
  const ExampleGroup := Group("ok", [VariantRecord("OK", 1, 0.25), VariantRecord("ok.", 1, 0.25), VariantRecord("ok", 1, 0.25)])

  /** `bf` sends the example's three spellings of "ok" to "ok" and "NO" to "no". */
  predicate ExampleForms(bf: string -> string)
  {
    bf("OK") == "ok" && bf("ok.") == "ok" && bf("ok") == "ok" && bf("NO") == "no"
  }

  lemma ExampleBaseForms()
    ensures ExampleForms(LettersLower)
  {
    assert LettersLower("K") == "k" && LettersLower("k") == "k" && LettersLower("k.") == "k";
    assert LettersLower("O") == "o";
  }

  lemma ExampleDistinctKeys(k1: string, k2: string)
    requires k1 != k2
    ensures Distinct([k1, k1, k1, k2]) == [k1, k2]
  {
    var a := [k1];
    assert Distinct(a) == [k1] by {
      assert a[..0] == [];
    }
    var b := a + [k1];
    assert b[..1] == a;
    var c := b + [k1];
    assert c[..2] == b;
    assert Distinct(c) == [k1];
    var d := c + [k2];
    assert d[..3] == c;
    assert d == [k1, k1, k1, k2];
  }

  lemma ExampleWithKey<T(!new), K>(bf: T -> K, a: T, b: T, c: T, d: T, k1: K, k2: K)
    requires bf(a) == k1 && bf(b) == k1 && bf(c) == k1 && bf(d) == k2 && k1 != k2
    ensures WithKey([a, b, c, d], bf, k1) == [a, b, c]
    ensures WithKey([a, b, c, d], bf, k2) == [d]
  {
    WithKeySnoc([], a, bf, k1);
    WithKeySnoc([], a, bf, k2);
    assert [] + [a] == [a];
    WithKeySnoc([a], b, bf, k1);
    WithKeySnoc([a], b, bf, k2);
    assert [a] + [b] == [a, b];
    WithKeySnoc([a, b], c, bf, k1);
    WithKeySnoc([a, b], c, bf, k2);
    assert [a, b] + [c] == [a, b, c];
    WithKeySnoc([a, b, c], d, bf, k1);
    WithKeySnoc([a, b, c], d, bf, k2);
    assert [a, b, c] + [d] == [a, b, c, d];
  }

  lemma GroupingOfFour(bf: string -> string, a: string, b: string, c: string, d: string, k1: string, k2: string)
    requires bf(a) == k1 && bf(b) == k1 && bf(c) == k1 && bf(d) == k2 && k1 != k2
    ensures BaseFormGroups([a, b, c, d], bf) == [(k1, [a, b, c]), (k2, [d])]
  {
    assert Keys([a, b, c, d], bf) == [k1, k1, k1, k2];
    ExampleDistinctKeys(k1, k2);
    ExampleWithKey(bf, a, b, c, d, k1, k2);
  }

  lemma ExampleGrouping(bf: string -> string)
    requires ExampleForms(bf)
    ensures BaseFormGroups(Distinct(ExampleColumn), bf) == [("ok", ["OK", "ok.", "ok"]), ("no", ["NO"])]
  {
    DistinctOfNoDup(ExampleColumn);
    GroupingOfFour(bf, "OK", "ok.", "ok", "NO", "ok", "no");
  }

  lemma ExampleCounts()
    ensures Count(ExampleColumn, "OK") == 1 && Count(ExampleColumn, "ok.") == 1 && Count(ExampleColumn, "ok") == 1
  {
    var a: seq<string> := ["OK"];
    assert a[..0] == [];
    var b: seq<string> := a + ["ok."];
    assert b[..1] == a;
    var c: seq<string> := b + ["ok"];
    assert c[..2] == b;
    var d: seq<string> := c + ["NO"];
    assert d[..3] == c;
    assert d == ExampleColumn;
  }

  lemma ExampleColumnGroups(bf: string -> string)
    requires ExampleForms(bf)
    ensures ColumnGroups(ExampleColumn, bf) == [ExampleGroup]
  {
    var col := ExampleColumn;
    var gs := BaseFormGroups(Distinct(col), bf);
    ExampleGrouping(bf);
    ExampleCounts();
    assert Records(col, ["OK", "ok.", "ok"]) == ExampleGroup.variants;
    assert gs[..1] == [("ok", ["OK", "ok.", "ok"])];
    assert gs[..1][..0] == [];
    assert MismatchGroups(col, gs[..1]) == [ExampleGroup];
  }

  lemma ExampleDetect(isString: seq<string> -> bool, bf: string -> string)
    requires isString(ExampleColumn) && ExampleForms(bf)
    ensures var f := Frame(4, ["c"], map["c" := ExampleColumn]);
      f.Valid() && Detect(f, isString, bf) == CheckValue(4, [ColumnReport("c", [ExampleGroup])])
  {
    var f := Frame(4, ["c"], map["c" := ExampleColumn]);
    assert f.cells["c"] == ExampleColumn;
    ExampleColumnGroups(bf);
    assert f.names[..0] == [];
    assert Columns(f, f.names, isString, bf) == [ColumnReport("c", ColumnGroups(ExampleColumn, bf))];
  }

  lemma ExampleFix()
    ensures FixColumns(map["c" := ExampleColumn], [ColumnReport("c", [ExampleGroup])]) == Ok(map["c" := ["OK", "OK", "OK", "NO"]])
  {
    var data := map["c" := ExampleColumn];
    var g := ExampleGroup;
    assert MostCommonIndex(g.variants) == 0 by {
      assert g.variants[..2][..1] == [g.variants[0]];
      assert g.variants[..2] == [g.variants[0], g.variants[1]];
    }
    assert MostCommonVariant(g) == "OK";
    assert VariantNames(g) == ["OK", "ok.", "ok"];
    var fixed: seq<string> := ["OK", "OK", "OK", "NO"];
    assert Replace(ExampleColumn, VariantNames(g), "OK") == fixed;
    assert [g][..0] == [];
    assert FixGroups(data, "c", [g]) == Ok(data["c" := fixed]);
    var cols := [ColumnReport("c", [g])];
    assert cols[..0] == [];
    assert data["c" := fixed] == map["c" := fixed];
  }

  /**
   The column `["OK", "ok.", "ok", "NO"]`: its three spellings of "ok" are
   reported with one row and a quarter of the rows each, "NO" is not; the
   "no variants" condition warns, "at most three variants" passes, and the
   fix rewrites the column to two distinct values, the first spelling
   winning the tie in share.
   */
  lemma OkExample()
    ensures var f := Frame(4, ["c"], map["c" := ExampleColumn]);
      && f.Valid()
      && Detect(f, _ => true, LettersLower) == CheckValue(4, [ColumnReport("c", [ExampleGroup])])
      && Evaluate(Condition(NoStringVariants, VariantsNumberPredicate(0)), Detect(f, _ => true, LettersLower)).category == Warn
      && Evaluate(Condition(NumberOfVariantsAtMost(3), VariantsNumberPredicate(3)), Detect(f, _ => true, LettersLower)).category == Pass
      && FixColumns(f.cells, Detect(f, _ => true, LettersLower).columns) == Ok(map["c" := ["OK", "OK", "OK", "NO"]])
  {
    var value := CheckValue(4, [ColumnReport("c", [ExampleGroup])]);
    ExampleBaseForms();
    ExampleDetect(_ => true, LettersLower);
    ExampleFix();
    VariantsNumberMeaning(value, 0, MaxColsToShow, MaxFormsToShow);
    VariantsNumberMeaning(value, 3, MaxColsToShow, MaxFormsToShow);
    assert |value.columns[0].groups[0].variants| == 3;
  }
}

=== FILE: conditions.dfy ===
/**
 The two conditions of the string-mismatch check.

 The variants-number condition (`_condition_variants_number`) warns when some
 base form of some column has more variants than allowed, and lists, for at
 most `maxColsToShow` columns, at most `maxFormsToShow` offending base forms
 each. The ratio condition (the `condition` nested in
 `add_condition_ratio_variants_less_or_equal`) fails when the variant shares
 of some column add up to more than `maxRatio`. Details texts are kept as
 the structured data they are formatted from.
 */
module Conditions {
  import opened Seqs
  import opened MismatchReport
  import opened Detection
  import opened Reduction

  datatype Category = Pass | Warn | Fail

  /** What a details text is built from; its wording is not modelled. */
  datatype Details =
    | VariantsAboveThreshold(found: nat, outOf: nat, shown: seq<(string, seq<string>)>)
    | RatioAboveThreshold(found: nat, outOf: nat, failing: seq<(string, real)>)
      /** "passed" message for a collection of `relevant` columns */
    | Passed(relevant: nat)

  datatype ConditionResult = ConditionResult(category: Category, details: Details)

  /*
   * Variants-number condition
   */

  /** The base forms of a column with more than `numMaxVariants` variants, in order. */
  function FailingForms(groups: seq<Group>, numMaxVariants: int): (fs: seq<string>)
    ensures forall b :: b in fs ==> exists j :: 0 <= j < |groups| && groups[j].baseForm == b && |groups[j].variants| > numMaxVariants
    ensures fs == [] <==> forall j :: 0 <= j < |groups| ==> |groups[j].variants| <= numMaxVariants
  {
    if groups == [] then []
    else
      var init := groups[..|groups| - 1];
      var g := groups[|groups| - 1];
      var rest := FailingForms(init, numMaxVariants);
      assert forall j :: 0 <= j < |init| ==> init[j] == groups[j];
      if |g.variants| > numMaxVariants then rest + [g.baseForm] else rest
  }

  /** Every base form with more than `numMaxVariants` variants is listed. */
  lemma {:induction false} FailingFormsListsAll(groups: seq<Group>, numMaxVariants: int)
    ensures forall j :: 0 <= j < |groups| && |groups[j].variants| > numMaxVariants ==>
              groups[j].baseForm in FailingForms(groups, numMaxVariants)
    decreases |groups|
  {
    if groups != [] {
      var init := groups[..|groups| - 1];
      FailingFormsListsAll(init, numMaxVariants);
      assert forall j :: 0 <= j < |init| ==> init[j] == groups[j];
    }
  }

  /**
   The `not_passing_variants` dictionary: one entry per column with a failing
   base form, in column order, listing at most `maxFormsToShow` of them.
   */
  function NotPassingVariants(cols: seq<ColumnReport>, numMaxVariants: int, maxFormsToShow: nat): (np: seq<(string, seq<string>)>)
    ensures |np| <= |cols|
    ensures np == [] <==> forall i :: 0 <= i < |cols| ==> FailingForms(cols[i].groups, numMaxVariants) == []
    ensures forall k :: 0 <= k < |np| ==>
              exists i :: 0 <= i < |cols| && np[k].0 == cols[i].name &&
                FailingForms(cols[i].groups, numMaxVariants) != [] &&
                np[k].1 == Take(FailingForms(cols[i].groups, numMaxVariants), maxFormsToShow)
  {
    if cols == [] then []
    else
      var init := cols[..|cols| - 1];
      var c := cols[|cols| - 1];
      var rest := NotPassingVariants(init, numMaxVariants, maxFormsToShow);
      assert forall i :: 0 <= i < |init| ==> init[i] == cols[i];
      var fs := FailingForms(c.groups, numMaxVariants);
      if fs == [] then rest else rest + [(c.name, Take(fs, maxFormsToShow))]
  }

  /** Every column with a failing base form has its entry in `not_passing_variants`. */
  lemma {:induction false} NotPassingVariantsListsAll(cols: seq<ColumnReport>, numMaxVariants: int, maxFormsToShow: nat, i: nat)
    requires i < |cols| && FailingForms(cols[i].groups, numMaxVariants) != []
    ensures (cols[i].name, Take(FailingForms(cols[i].groups, numMaxVariants), maxFormsToShow)) in
      NotPassingVariants(cols, numMaxVariants, maxFormsToShow)
    decreases |cols|
  {
    var init := cols[..|cols| - 1];
    if i < |init| {
      assert init[i] == cols[i];
      NotPassingVariantsListsAll(init, numMaxVariants, maxFormsToShow, i);
    }
  }

  /**
   The variants-number condition as the source writes it: its "passed"
   message is built from the one-element list `['columns']` rather than from
   the result's columns.
   */
  function VariantsNumberAsWritten(value: CheckValue, numMaxVariants: int, maxColsToShow: nat, maxFormsToShow: nat): ConditionResult
  {
    var np := NotPassingVariants(value.columns, numMaxVariants, maxFormsToShow);
    if np != [] then ConditionResult(Warn, VariantsAboveThreshold(|np|, |value.columns|, Take(np, maxColsToShow)))
    else ConditionResult(Pass, Passed(|["columns"]|))
  }

  /** The variants-number condition, with the "passed" message counting the result's columns. */
  function VariantsNumber(value: CheckValue, numMaxVariants: int, maxColsToShow: nat, maxFormsToShow: nat): ConditionResult
  {
    var np := NotPassingVariants(value.columns, numMaxVariants, maxFormsToShow);
    if np != [] then ConditionResult(Warn, VariantsAboveThreshold(|np|, |value.columns|, Take(np, maxColsToShow)))
    else ConditionResult(Pass, Passed(|value.columns|))
  }

  /** Some base form of some column has more than `numMaxVariants` variants. */
  ghost predicate HasTooManyVariants(value: CheckValue, numMaxVariants: int)
  {
    exists i, j :: 0 <= i < |value.columns| && 0 <= j < |value.columns[i].groups| &&
      |value.columns[i].groups[j].variants| > numMaxVariants
  }

  /**
   The condition warns exactly when some base form has too many variants and
   passes otherwise; a warning reports how many of the columns fail, names at
   most `maxColsToShow` of them and at most `maxFormsToShow` failing base forms
   of each.
   */
  lemma VariantsNumberMeaning(value: CheckValue, numMaxVariants: int, maxColsToShow: nat, maxFormsToShow: nat)
    ensures var cr := VariantsNumber(value, numMaxVariants, maxColsToShow, maxFormsToShow);
      && (cr.category == Warn <==> HasTooManyVariants(value, numMaxVariants))
      && (cr.category == Pass <==> !HasTooManyVariants(value, numMaxVariants))
      && (cr.category == Pass ==> cr.details == Passed(|value.columns|))
      && (cr.category == Warn ==>
            cr.details.VariantsAboveThreshold? &&
            1 <= cr.details.found <= cr.details.outOf == |value.columns| &&
            |cr.details.shown| <= maxColsToShow &&
            forall k :: 0 <= k < |cr.details.shown| ==>
              |cr.details.shown[k].1| <= maxFormsToShow &&
              exists i :: 0 <= i < |value.columns| && cr.details.shown[k].0 == value.columns[i].name &&
                forall b :: b in cr.details.shown[k].1 ==> b in FailingForms(value.columns[i].groups, numMaxVariants))
  {
    var cols := value.columns;
    var np := NotPassingVariants(cols, numMaxVariants, maxFormsToShow);
    if HasTooManyVariants(value, numMaxVariants) {
      var i, j :| 0 <= i < |cols| && 0 <= j < |cols[i].groups| && |cols[i].groups[j].variants| > numMaxVariants;
      assert FailingForms(cols[i].groups, numMaxVariants) != [];
    }
    if np != [] {
      var shown := Take(np, maxColsToShow);
      forall k | 0 <= k < |shown|
        ensures exists i :: 0 <= i < |cols| && shown[k].0 == cols[i].name &&
                  forall b :: b in shown[k].1 ==> b in FailingForms(cols[i].groups, numMaxVariants)
      {
        assert shown[k] == np[k];
        var i :| 0 <= i < |cols| && np[k].0 == cols[i].name &&
          np[k].1 == Take(FailingForms(cols[i].groups, numMaxVariants), maxFormsToShow);
      }
    }
  }

  /**
   Finding: with nothing above the threshold, the "passed" message as written
   always describes one column; it should describe the result's columns
   (none here).
   */
  lemma PassedMessageAsWrittenMiscounts()
    ensures VariantsNumberAsWritten(CheckValue(0, []), 0, 5, 5).details == Passed(1)
    ensures VariantsNumber(CheckValue(0, []), 0, 5, 5).details == Passed(0)
  {
  }

  /**
   The base-form loop of `_condition_variants_number` for one column: whether
   the column gets an entry, and the failing base forms it lists.
   */
  method ColumnFailingForms(col: ColumnReport, numMaxVariants: int, maxFormsToShow: nat) returns (listed: bool, forms: seq<string>)
    ensures listed <==> exists j :: 0 <= j < |col.groups| && |col.groups[j].variants| > numMaxVariants
    ensures listed <==> FailingForms(col.groups, numMaxVariants) != []
    ensures forms == Take(FailingForms(col.groups, numMaxVariants), maxFormsToShow)
  {
    listed := false;
    forms := [];
    var j := 0;
    while j < |col.groups|
      invariant 0 <= j <= |col.groups|
      invariant listed <==> FailingForms(col.groups[..j], numMaxVariants) != []
      invariant forms == Take(FailingForms(col.groups[..j], numMaxVariants), maxFormsToShow)
    {
      assert col.groups[..j + 1][..j] == col.groups[..j];
      var g := col.groups[j];
      if |g.variants| > numMaxVariants {
        TakeSnoc(FailingForms(col.groups[..j], numMaxVariants), g.baseForm, maxFormsToShow);
        listed := true;
        if |forms| < maxFormsToShow {
          forms := forms + [g.baseForm];
        }
      }
      j := j + 1;
    }
    assert col.groups[..j] == col.groups;
  }

  /** `_condition_variants_number`: accumulates the failing base forms column by column. */
  method ConditionVariantsNumber(value: CheckValue, numMaxVariants: int, maxColsToShow: nat := 5, maxFormsToShow: nat := 5)
    returns (cr: ConditionResult)
    ensures cr == VariantsNumber(value, numMaxVariants, maxColsToShow, maxFormsToShow)
    ensures cr.category == Warn <==> HasTooManyVariants(value, numMaxVariants)
    ensures cr.category == Pass <==> !HasTooManyVariants(value, numMaxVariants)
  {
    var notPassing: seq<(string, seq<string>)> := [];
    var i := 0;
    while i < |value.columns|
      invariant 0 <= i <= |value.columns|
      invariant notPassing == NotPassingVariants(value.columns[..i], numMaxVariants, maxFormsToShow)
    {
      var col := value.columns[i];
      assert value.columns[..i + 1][..i] == value.columns[..i];
      var listed, forms := ColumnFailingForms(col, numMaxVariants, maxFormsToShow);
      if listed {
        notPassing := notPassing + [(col.name, forms)];
      }
      i := i + 1;
    }
    assert value.columns[..i] == value.columns;
    if notPassing != [] {
      var variantsToShow := Take(notPassing, maxColsToShow);
      cr := ConditionResult(Warn, VariantsAboveThreshold(|notPassing|, |value.columns|, variantsToShow));
    } else {
      cr := ConditionResult(Pass, Passed(|value.columns|));
    }
    VariantsNumberMeaning(value, numMaxVariants, maxColsToShow, maxFormsToShow);
  }

  /*
   * Ratio condition
   */

  /** Sum of the shares of a list of variant records. */
  function RecordsPercent(rs: seq<VariantRecord>): real
  {
    if rs == [] then 0.0 else RecordsPercent(rs[..|rs| - 1]) + rs[|rs| - 1].percent
  }

  /** `variants_percent_sum` of a column: the shares of every variant of every base form. */
  function PercentSum(groups: seq<Group>): real
  {
    if groups == [] then 0.0 else PercentSum(groups[..|groups| - 1]) + RecordsPercent(groups[|groups| - 1].variants)
  }

  /** The `not_passing_columns` dictionary: the columns whose share sum exceeds `maxRatio`, with that sum. */
  function FailingColumns(cols: seq<ColumnReport>, maxRatio: real): (fc: seq<(string, real)>)
    ensures |fc| <= |cols|
    ensures fc == [] <==> forall i :: 0 <= i < |cols| ==> PercentSum(cols[i].groups) <= maxRatio
    ensures forall k :: 0 <= k < |fc| ==>
              fc[k].1 > maxRatio && exists i :: 0 <= i < |cols| && fc[k] == (cols[i].name, PercentSum(cols[i].groups))
  {
    if cols == [] then []
    else
      var init := cols[..|cols| - 1];
      var c := cols[|cols| - 1];
      var rest := FailingColumns(init, maxRatio);
      assert forall i :: 0 <= i < |init| ==> init[i] == cols[i];
      var sum := PercentSum(c.groups);
      if sum > maxRatio then rest + [(c.name, sum)] else rest
  }

  /** Every column whose share sum exceeds `maxRatio` is listed with that sum. */
  lemma {:induction false} FailingColumnsListsAll(cols: seq<ColumnReport>, maxRatio: real, i: nat)
    requires i < |cols| && PercentSum(cols[i].groups) > maxRatio
    ensures (cols[i].name, PercentSum(cols[i].groups)) in FailingColumns(cols, maxRatio)
    decreases |cols|
  {
    var init := cols[..|cols| - 1];
    if i < |init| {
      assert init[i] == cols[i];
      FailingColumnsListsAll(init, maxRatio, i);
    }
  }

  /** The ratio condition. */
  function VariantsRatio(value: CheckValue, maxRatio: real): ConditionResult
  {
    var fc := FailingColumns(value.columns, maxRatio);
    if fc != [] then ConditionResult(Fail, RatioAboveThreshold(|fc|, |value.columns|, fc))
    else ConditionResult(Pass, Passed(|value.columns|))
  }

  /** Some column's variant shares add up to more than `maxRatio`. */
  ghost predicate HasRatioAbove(value: CheckValue, maxRatio: real)
  {
    exists i :: 0 <= i < |value.columns| && PercentSum(value.columns[i].groups) > maxRatio
  }

  /** The nested `condition` of `add_condition_ratio_variants_less_or_equal`. */
  method ConditionRatio(value: CheckValue, maxRatio: real) returns (cr: ConditionResult)
    ensures cr == VariantsRatio(value, maxRatio)
    ensures cr.category == Fail <==> HasRatioAbove(value, maxRatio)
    ensures cr.category == Pass <==> !HasRatioAbove(value, maxRatio)
    ensures cr.category == Fail ==> cr.details.RatioAboveThreshold? && 1 <= cr.details.found <= cr.details.outOf == |value.columns|
    ensures cr.category == Fail ==>
      forall i :: 0 <= i < |value.columns| && PercentSum(value.columns[i].groups) > maxRatio ==>
        (value.columns[i].name, PercentSum(value.columns[i].groups)) in cr.details.failing
    ensures cr.category == Pass ==> cr.details == Passed(|value.columns|)
  {
    var notPassing: seq<(string, real)> := [];
    var i := 0;
    while i < |value.columns|
      invariant 0 <= i <= |value.columns|
      invariant notPassing == FailingColumns(value.columns[..i], maxRatio)
    {
      var col := value.columns[i];
      assert value.columns[..i + 1][..i] == value.columns[..i];
      var variantsPercentSum := 0.0;
      var j := 0;
      while j < |col.groups|
        invariant 0 <= j <= |col.groups|
        invariant variantsPercentSum == PercentSum(col.groups[..j])
      {
        assert col.groups[..j + 1][..j] == col.groups[..j];
        variantsPercentSum := variantsPercentSum + RecordsPercent(col.groups[j].variants);
        j := j + 1;
      }
      assert col.groups[..j] == col.groups;
      if variantsPercentSum > maxRatio {
        notPassing := notPassing + [(col.name, variantsPercentSum)];
      }
      i := i + 1;
    }
    assert value.columns[..i] == value.columns;
    if notPassing != [] {
      cr := ConditionResult(Fail, RatioAboveThreshold(|notPassing|, |value.columns|, notPassing));
      forall i | 0 <= i < |value.columns| && PercentSum(value.columns[i].groups) > maxRatio
        ensures (value.columns[i].name, PercentSum(value.columns[i].groups)) in notPassing
      {
        FailingColumnsListsAll(value.columns, maxRatio, i);
      }
    } else {
      cr := ConditionResult(Pass, Passed(|value.columns|));
    }
  }

  /*
   * The ratio condition and the reduced score agree
   */

  /** Every record's share is its count over `n_samples`. */
  ghost predicate SharesOfSamples(value: CheckValue)
  {
    forall i, j, k ::
      (0 <= i < |value.columns| && 0 <= j < |value.columns[i].groups| &&
       0 <= k < |value.columns[i].groups[j].variants|) ==>
        && value.nSamples > 0
        && value.columns[i].groups[j].variants[k].percent ==
           value.columns[i].groups[j].variants[k].count as real / value.nSamples as real
  }

  lemma ShareOfSum(a: real, b: real, n: real)
    requires n > 0.0
    ensures a / n + b / n == (a + b) / n
  {
    var x, y := a / n, b / n;
    assert x * n == a && y * n == b;
    assert (x + y) * n == a + b;
  }

  lemma {:induction false} RecordsPercentIsShare(rs: seq<VariantRecord>, n: nat)
    requires n > 0
    requires forall k :: 0 <= k < |rs| ==> rs[k].percent == rs[k].count as real / n as real
    ensures RecordsPercent(rs) == RecordsCount(rs) as real / n as real
    decreases |rs|
  {
    if rs != [] {
      var init := rs[..|rs| - 1];
      RecordsPercentIsShare(init, n);
      var a := RecordsCount(init) as real;
      var b := rs[|rs| - 1].count as real;
      ShareOfSum(a, b, n as real);
    }
  }

  lemma {:induction false} PercentSumIsShare(groups: seq<Group>, n: nat)
    requires n > 0
    requires forall j, k :: 0 <= j < |groups| && 0 <= k < |groups[j].variants| ==>
      groups[j].variants[k].percent == groups[j].variants[k].count as real / n as real
    ensures PercentSum(groups) == GroupsCount(groups) as real / n as real
    decreases |groups|
  {
    if groups != [] {
      var init := groups[..|groups| - 1];
      var last := groups[|groups| - 1];
      assert forall j :: 0 <= j < |init| ==> init[j] == groups[j];
      PercentSumIsShare(init, n);
      RecordsPercentIsShare(last.variants, n);
      var a := GroupsCount(init) as real;
      var b := RecordsCount(last.variants) as real;
      ShareOfSum(a, b, n as real);
    }
  }

  /**
   When every share is taken over `n_samples`, the ratio condition fails
   exactly when some column's `reduce_output` score exceeds `maxRatio`.
   */
  lemma RatioFailsIffScoreAbove(value: CheckValue, maxRatio: real)
    requires value.nSamples > 0
    requires SharesOfSamples(value)
    ensures ReduceOutput(value).Ok?
    ensures VariantsRatio(value, maxRatio).category == Fail <==>
      exists i :: 0 <= i < |ReduceOutput(value).value| && ReduceOutput(value).value[i].1 > maxRatio
  {
    var scores := ReduceOutput(value).value;
    forall i | 0 <= i < |value.columns|
      ensures PercentSum(value.columns[i].groups) == scores[i].1
    {
      PercentSumIsShare(value.columns[i].groups, value.nSamples);
    }
  }

  /** On a detected value every share is taken over `n_samples`. */
  lemma DetectedSharesOfSamples(f: Frame, isString: seq<string> -> bool, bf: string -> string)
    requires f.Valid()
    ensures SharesOfSamples(Detect(f, isString, bf))
  {
    var value := Detect(f, isString, bf);
    DetectIsDetection(f, isString, bf);
    forall i, j, k | 0 <= i < |value.columns| && 0 <= j < |value.columns[i].groups| &&
      0 <= k < |value.columns[i].groups[j].variants|
      ensures value.nSamples > 0
      ensures value.columns[i].groups[j].variants[k].percent ==
        value.columns[i].groups[j].variants[k].count as real / value.nSamples as real
    {
      var c := value.columns[i];
      assert IsMismatchReport(f.cells[c.name], bf, c.groups);
      assert IsVariantGroup(f.cells[c.name], bf, c.groups[j]);
      assert IsRecordOf(f.cells[c.name], c.groups[j].variants[k]);
    }
  }
}

=== FILE: detection.dfy ===
/**
 Detection of string variants (`StringMismatch.run_logic`).

 For every string column of the frame, the distinct values are grouped by
 their base form; every base form with more than one variant is reported with
 one record per variant: the variant, its number of rows and its share of the
 column's rows. The base-form normaliser `bf` and the string-column test
 `isString` are parameters: their code is not part of this model.
 */
module Detection {
  import opened Seqs
  import opened MismatchReport

  /*
   * Specification
   */

  /**
   The grouping of a column's distinct values by base form: base forms in
   order of first appearance, each with its variants in their order among
   the distinct values.
   */
  function BaseFormGroups(uniques: seq<string>, bf: string -> string): (gs: seq<(string, seq<string>)>)
  {
    var forms := Distinct(Keys(uniques, bf));
    seq(|forms|, i requires 0 <= i < |forms| => (forms[i], WithKey(uniques, bf, forms[i])))
  }

  /** The record of variant `v` of column `col`. */
  function Record(col: seq<string>, v: string): (r: VariantRecord)
    requires v in col
    ensures r.variant == v && IsRecordOf(col, r)
  {
    var n := Count(col, v);
    var len := |col|;
    assert 1 <= n <= len;
    assert n as real / len as real <= 1.0 by {
      assert n as real <= len as real;
    }
    VariantRecord(v, n, n as real / len as real)
  }

  /** The records of the variants `vs` of column `col`, in order. */
  function Records(col: seq<string>, vs: seq<string>): (rs: seq<VariantRecord>)
    requires forall v :: v in vs ==> v in col
  {
    seq(|vs|, k requires 0 <= k < |vs| => Record(col, vs[k]))
  }

  /** The reported groups of column `col`: the groupings `gs` with more than one variant. */
  function MismatchGroups(col: seq<string>, gs: seq<(string, seq<string>)>): (groups: seq<Group>)
    requires forall i, v :: 0 <= i < |gs| && v in gs[i].1 ==> v in col
  {
    if gs == [] then []
    else
      var rest := MismatchGroups(col, gs[..|gs| - 1]);
      var (b, vs) := gs[|gs| - 1];
      if |vs| == 1 then rest else rest + [Group(b, Records(col, vs))]
  }

  /** The report of one string column. */
  function ColumnGroups(col: seq<string>, bf: string -> string): (groups: seq<Group>)
  {
    var uniques := Distinct(col);
    BaseFormGroupsSound(uniques, bf);
    MismatchGroups(col, BaseFormGroups(uniques, bf))
  }

  /** The reports of the string columns among `names`, in order. */
  function Columns(f: Frame, names: seq<string>, isString: seq<string> -> bool, bf: string -> string): (cols: seq<ColumnReport>)
    requires forall c :: c in names ==> c in f.cells
  {
    if names == [] then []
    else
      var rest := Columns(f, names[..|names| - 1], isString, bf);
      var c := names[|names| - 1];
      if isString(f.cells[c]) then rest + [ColumnReport(c, ColumnGroups(f.cells[c], bf))] else rest
  }

  /** The value the check reports for frame `f`. */
  function Detect(f: Frame, isString: seq<string> -> bool, bf: string -> string): (value: CheckValue)
    requires f.Valid()
  {
    CheckValue(f.rows, Columns(f, f.names, isString, bf))
  }

  /*
   * What a report means
   */

  /** `r` records variant `r.variant` with its number of rows in `col` and its share of them. */
  ghost predicate IsRecordOf(col: seq<string>, r: VariantRecord)
  {
    && r.count == Count(col, r.variant)
    && |col| > 0
    && r.percent == r.count as real / |col| as real
    && 0.0 < r.percent <= 1.0
  }

  /** `g` lists, once each, every distinct value of `col` whose base form is `g.baseForm`, and there are at least two. */
  ghost predicate IsVariantGroup(col: seq<string>, bf: string -> string, g: Group)
  {
    && |g.variants| >= 2
    && NoDup(VariantNames(g))
    && (forall v :: v in VariantNames(g) <==> v in col && bf(v) == g.baseForm)
    && (forall k :: 0 <= k < |g.variants| ==> IsRecordOf(col, g.variants[k]))
  }

  /**
   `groups` is a complete mismatch report of `col`: each group is a variant
   group, no base form is reported twice, and every base form shared by two
   distinct values of the column is reported.
   */
  ghost predicate IsMismatchReport(col: seq<string>, bf: string -> string, groups: seq<Group>)
  {
    && (forall j :: 0 <= j < |groups| ==> IsVariantGroup(col, bf, groups[j]))
    && NoDup(BaseForms(groups))
    && (forall u, w :: u in col && w in col && u != w && bf(u) == bf(w) ==> bf(u) in BaseForms(groups))
  }

  /**
   `value` is what the check reports for `f`: `n_samples` is the row count,
   exactly the string columns have an entry (possibly without groups), once
   each, and each entry is a complete mismatch report of its column.
   */
  ghost predicate IsDetectionOf(f: Frame, isString: seq<string> -> bool, bf: string -> string, value: CheckValue)
  {
    && value.nSamples == f.rows
    && NoDup(ColumnNames(value.columns))
    && (forall c :: c in ColumnNames(value.columns) <==> c in f.cells && isString(f.cells[c]))
    && (forall i :: 0 <= i < |value.columns| ==>
          value.columns[i].name in f.cells &&
          IsMismatchReport(f.cells[value.columns[i].name], bf, value.columns[i].groups))
  }

  /*
   * Lemmas
   */

  /** Every grouping is non-empty, holds exactly the values with its base form, and no base form is grouped twice. */
  lemma BaseFormGroupsSound(uniques: seq<string>, bf: string -> string)
    ensures var gs := BaseFormGroups(uniques, bf);
      && (forall i, j :: 0 <= i < j < |gs| ==> gs[i].0 != gs[j].0)
      && (forall i, v :: 0 <= i < |gs| ==> (v in gs[i].1 <==> v in uniques && bf(v) == gs[i].0))
      && (NoDup(uniques) ==> forall i :: 0 <= i < |gs| ==> NoDup(gs[i].1))
      && (forall i :: 0 <= i < |gs| ==> |gs[i].1| >= 1)
  {
    var forms := Distinct(Keys(uniques, bf));
    var gs := BaseFormGroups(uniques, bf);
    forall i | 0 <= i < |forms| {
      WithKeyMembers(uniques, bf, forms[i]);
    }
    forall i | 0 <= i < |gs| ensures |gs[i].1| >= 1 {
      assert forms[i] in Keys(uniques, bf);
      var k :| 0 <= k < |uniques| && Keys(uniques, bf)[k] == forms[i];
      assert uniques[k] in gs[i].1;
    }
  }

  /** Every distinct value lies in the grouping of its base form. */
  lemma BaseFormGroupsComplete(uniques: seq<string>, bf: string -> string, u: string)
    requires u in uniques
    ensures var gs := BaseFormGroups(uniques, bf);
      exists i :: 0 <= i < |gs| && gs[i].0 == bf(u)
  {
    var forms := Distinct(Keys(uniques, bf));
    var gs := BaseFormGroups(uniques, bf);
    var k :| 0 <= k < |uniques| && uniques[k] == u;
    assert Keys(uniques, bf)[k] == bf(u);
    assert bf(u) in Keys(uniques, bf);
    assert bf(u) in forms;
    var i :| 0 <= i < |forms| && forms[i] == bf(u);
    assert gs[i].0 == bf(u);
  }

  lemma TwoDistinctMembers(s: seq<string>, u: string, w: string)
    requires u in s && w in s && u != w
    ensures |s| >= 2
  {
  }

  lemma {:induction false} RecordsNames(col: seq<string>, b: string, vs: seq<string>)
    requires forall v :: v in vs ==> v in col
    ensures VariantNames(Group(b, Records(col, vs))) == vs
  {
    var g := Group(b, Records(col, vs));
    assert |VariantNames(g)| == |vs|;
    forall k | 0 <= k < |vs| ensures VariantNames(g)[k] == vs[k] {
      assert g.variants[k] == Record(col, vs[k]);
    }
  }

  /** A grouping with at least two distinct members becomes a variant group. */
  lemma GroupFromGrouping(col: seq<string>, bf: string -> string, b: string, vs: seq<string>)
    requires |vs| >= 2 && NoDup(vs)
    requires forall v :: v in vs <==> v in col && bf(v) == b
    ensures IsVariantGroup(col, bf, Group(b, Records(col, vs)))
  {
    RecordsNames(col, b, vs);
    var g := Group(b, Records(col, vs));
    forall k | 0 <= k < |g.variants| ensures IsRecordOf(col, g.variants[k]) {
      assert g.variants[k] == Record(col, vs[k]);
    }
  }

  /** The reported groups are variant groups, one per grouping with more than one variant, in order. */
  lemma {:induction false} MismatchGroupsSound(col: seq<string>, bf: string -> string, gs: seq<(string, seq<string>)>)
    requires forall i, j :: 0 <= i < j < |gs| ==> gs[i].0 != gs[j].0
    requires forall i :: 0 <= i < |gs| ==> |gs[i].1| >= 1 && NoDup(gs[i].1)
    requires forall i, v :: 0 <= i < |gs| ==> (v in gs[i].1 <==> v in col && bf(v) == gs[i].0)
    ensures forall j :: 0 <= j < |MismatchGroups(col, gs)| ==> IsVariantGroup(col, bf, MismatchGroups(col, gs)[j])
    ensures NoDup(BaseForms(MismatchGroups(col, gs)))
    ensures forall b :: b in BaseForms(MismatchGroups(col, gs)) ==> exists i :: 0 <= i < |gs| && gs[i].0 == b
    ensures forall i :: 0 <= i < |gs| && |gs[i].1| >= 2 ==> gs[i].0 in BaseForms(MismatchGroups(col, gs))
    decreases |gs|
  {
    if gs != [] {
      var gs' := gs[..|gs| - 1];
      MismatchGroupsSound(col, bf, gs');
      var rest := MismatchGroups(col, gs');
      var (b, vs) := gs[|gs| - 1];
      if |vs| != 1 {
        GroupFromGrouping(col, bf, b, vs);
        var groups := rest + [Group(b, Records(col, vs))];
        assert BaseForms(groups) == BaseForms(rest) + [b];
        assert forall i :: 0 <= i < |gs'| ==> gs'[i].0 != b by {
          forall i | 0 <= i < |gs'| ensures gs'[i].0 != b {
            assert gs'[i] == gs[i];
          }
        }
        assert b !in BaseForms(rest);
        NoDupConcat(BaseForms(rest), [b]);
      }
    }
  }

  /** The report of a column is a complete mismatch report. */
  lemma ColumnGroupsIsReport(col: seq<string>, bf: string -> string)
    ensures IsMismatchReport(col, bf, ColumnGroups(col, bf))
  {
    var uniques := Distinct(col);
    var gs := BaseFormGroups(uniques, bf);
    BaseFormGroupsSound(uniques, bf);
    MismatchGroupsSound(col, bf, gs);
    var groups := ColumnGroups(col, bf);
    forall u, w | u in col && w in col && u != w && bf(u) == bf(w)
      ensures bf(u) in BaseForms(groups)
    {
      BaseFormGroupsComplete(uniques, bf, u);
      var i :| 0 <= i < |gs| && gs[i].0 == bf(u);
      assert u in gs[i].1 && w in gs[i].1;
      TwoDistinctMembers(gs[i].1, u, w);
    }
  }

  /** The reports of the columns `names`: exactly the string columns, once each, each a complete report. */
  lemma {:induction false} ColumnsSound(f: Frame, names: seq<string>, isString: seq<string> -> bool, bf: string -> string)
    requires forall c :: c in names ==> c in f.cells
    requires NoDup(names)
    ensures NoDup(ColumnNames(Columns(f, names, isString, bf)))
    ensures forall c :: c in ColumnNames(Columns(f, names, isString, bf)) <==> c in names && isString(f.cells[c])
    ensures forall i :: 0 <= i < |Columns(f, names, isString, bf)| ==>
              Columns(f, names, isString, bf)[i].name in f.cells &&
              Columns(f, names, isString, bf)[i].groups == ColumnGroups(f.cells[Columns(f, names, isString, bf)[i].name], bf)
    decreases |names|
  {
    if names != [] {
      var names' := names[..|names| - 1];
      var c := names[|names| - 1];
      assert names == names' + [c];
      assert c !in names' by {
        forall k | 0 <= k < |names'| ensures names'[k] != c {
          assert names[k] != names[|names| - 1];
        }
      }
      ColumnsSound(f, names', isString, bf);
      var rest := Columns(f, names', isString, bf);
      if isString(f.cells[c]) {
        var cols := rest + [ColumnReport(c, ColumnGroups(f.cells[c], bf))];
        assert ColumnNames(cols) == ColumnNames(rest) + [c];
        NoDupConcat(ColumnNames(rest), [c]);
      }
    }
  }

  /** The reported base forms are the groupings with at least two variants, in grouping order. */
  lemma {:induction false} MismatchGroupsInOrder(col: seq<string>, gs: seq<(string, seq<string>)>)
    requires forall i, v :: 0 <= i < |gs| && v in gs[i].1 ==> v in col
    requires forall i :: 0 <= i < |gs| ==> |gs[i].1| >= 1
    ensures BaseForms(MismatchGroups(col, gs)) ==
      Keys(Filter(gs, (p: (string, seq<string>)) => |p.1| >= 2), (p: (string, seq<string>)) => p.0)
    decreases |gs|
  {
    if gs != [] {
      var gs' := gs[..|gs| - 1];
      MismatchGroupsInOrder(col, gs');
      var rest := MismatchGroups(col, gs');
      var (b, vs) := gs[|gs| - 1];
      if |vs| != 1 {
        assert BaseForms(rest + [Group(b, Records(col, vs))]) == BaseForms(rest) + [b];
        var kept := Filter(gs', (p: (string, seq<string>)) => |p.1| >= 2);
        assert Keys(kept + [(b, vs)], (p: (string, seq<string>)) => p.0) ==
          Keys(kept, (p: (string, seq<string>)) => p.0) + [b];
      } else {
        assert Filter(gs, (p: (string, seq<string>)) => |p.1| >= 2) == Filter(gs', (p: (string, seq<string>)) => |p.1| >= 2);
      }
    }
  }

  /** The reported columns are the string columns among `names`, in the order of `names`. */
  lemma {:induction false} ColumnsInFrameOrder(f: Frame, names: seq<string>, isString: seq<string> -> bool, bf: string -> string)
    requires forall c :: c in names ==> c in f.cells
    ensures ColumnNames(Columns(f, names, isString, bf)) == Filter(names, c => c in f.cells && isString(f.cells[c]))
    decreases |names|
  {
    if names != [] {
      var names' := names[..|names| - 1];
      var c := names[|names| - 1];
      ColumnsInFrameOrder(f, names', isString, bf);
      var rest := Columns(f, names', isString, bf);
      if isString(f.cells[c]) {
        assert ColumnNames(rest + [ColumnReport(c, ColumnGroups(f.cells[c], bf))]) == ColumnNames(rest) + [c];
      }
    }
  }

  /** What `run_logic` reports is a detection of the frame's string variants. */
  lemma DetectIsDetection(f: Frame, isString: seq<string> -> bool, bf: string -> string)
    requires f.Valid()
    ensures IsDetectionOf(f, isString, bf, Detect(f, isString, bf))
  {
    var value := Detect(f, isString, bf);
    ColumnsSound(f, f.names, isString, bf);
    forall i | 0 <= i < |value.columns|
      ensures IsMismatchReport(f.cells[value.columns[i].name], bf, value.columns[i].groups)
    {
      ColumnGroupsIsReport(f.cells[value.columns[i].name], bf);
    }
  }

  /** The value reports the frame's string columns in frame order. */
  lemma DetectInFrameOrder(f: Frame, isString: seq<string> -> bool, bf: string -> string)
    requires f.Valid()
    ensures ColumnNames(Detect(f, isString, bf).columns) == Filter(f.names, c => c in f.cells && isString(f.cells[c]))
  {
    ColumnsInFrameOrder(f, f.names, isString, bf);
  }

  /*
   * The check
   */

  /** The variant loop of `run_logic`: one record per variant, in order. */
  method VariantRecords(column: seq<string>, variants: seq<string>) returns (records: seq<VariantRecord>)
    requires forall v :: v in variants ==> v in column
    ensures records == Records(column, variants)
  {
    records := [];
    var k := 0;
    while k < |variants|
      invariant 0 <= k <= |variants|
      invariant |records| == k
      invariant forall t :: 0 <= t < k ==> records[t] == Record(column, variants[t])
    {
      var count := Count(column, variants[k]);
      var percent := count as real / |column| as real;
      records := records + [VariantRecord(variants[k], count, percent)];
      k := k + 1;
    }
  }

  /** The base-form loop of `run_logic` for one string column: base forms with one variant are skipped. */
  method ColumnMismatches(column: seq<string>, bf: string -> string) returns (groups: seq<Group>)
    ensures groups == ColumnGroups(column, bf)
    ensures IsMismatchReport(column, bf, groups)
  {
    groups := [];
    var uniques := Distinct(column);
    var baseFormToVariants := BaseFormGroups(uniques, bf);
    BaseFormGroupsSound(uniques, bf);
    var j := 0;
    while j < |baseFormToVariants|
      invariant 0 <= j <= |baseFormToVariants|
      invariant groups == MismatchGroups(column, baseFormToVariants[..j])
    {
      var (baseForm, variants) := baseFormToVariants[j];
      assert baseFormToVariants[..j + 1][..j] == baseFormToVariants[..j];
      if |variants| != 1 {
        var records := VariantRecords(column, variants);
        groups := groups + [Group(baseForm, records)];
      }
      j := j + 1;
    }
    assert baseFormToVariants[..j] == baseFormToVariants;
    ColumnGroupsIsReport(column, bf);
  }

  /** `run_logic`: builds the result dictionary column by column; every string column gets an entry. */
  method RunLogic(f: Frame, isString: seq<string> -> bool, bf: string -> string) returns (value: CheckValue)
    requires f.Valid()
    ensures value == Detect(f, isString, bf)
    ensures IsDetectionOf(f, isString, bf, value)
  {
    var columns: seq<ColumnReport> := [];
    var i := 0;
    while i < |f.names|
      invariant 0 <= i <= |f.names|
      invariant columns == Columns(f, f.names[..i], isString, bf)
    {
      var name := f.names[i];
      var column := f.cells[name];
      assert f.names[..i + 1][..i] == f.names[..i];
      if isString(column) {
        var groups := ColumnMismatches(column, bf);
        columns := columns + [ColumnReport(name, groups)];
      }
      i := i + 1;
    }
    assert f.names[..i] == f.names;
    value := CheckValue(f.rows, columns);
    DetectIsDetection(f, isString, bf);
  }
}

=== FILE: fix.dfy ===
/**
 The automatic fix of the string-mismatch check (`StringMismatch.fix_logic`).

 On a copy of the dataset's cells, every variant of every reported base form
 is rewritten to that base form's most common variant, group after group;
 the copy then replaces the dataset of the requested kind in the context.
 */
module Fix {
  import opened Seqs
  import opened MismatchReport
  import opened Detection

  datatype DatasetKind = Train | Test

  /** The exceptions `fix_logic` can raise. */
  datatype FixError =
    | MissingDataset(kind: DatasetKind)              // the context has no dataset of that kind
    | EmptyGroup(column: string, baseForm: string)   // indexing the sorted empty list
    | MissingColumn(column: string)                  // the data has no such column

  /*
   * Specification
   */

  /**
   The index of the first record with the highest share: the head of the
   records sorted by share in descending order, the sort being stable.
   */
  function MostCommonIndex(rs: seq<VariantRecord>): (k: nat)
    requires rs != []
    ensures k < |rs|
    ensures forall j :: 0 <= j < |rs| ==> rs[j].percent <= rs[k].percent
    ensures forall j :: 0 <= j < k ==> rs[j].percent < rs[k].percent
  {
    if |rs| == 1 then 0
    else
      var k := MostCommonIndex(rs[..|rs| - 1]);
      if rs[|rs| - 1].percent > rs[k].percent then |rs| - 1 else k
  }

  /** The variant a group is rewritten to. */
  function MostCommonVariant(g: Group): string
    requires g.variants != []
  {
    g.variants[MostCommonIndex(g.variants)].variant
  }

  /** A column with every cell among `variants` replaced by `target`. */
  function Replace(col: seq<string>, variants: seq<string>, target: string): seq<string>
  {
    seq(|col|, r requires 0 <= r < |col| => if col[r] in variants then target else col[r])
  }

  /** The cells after rewriting the groups of column `name` one after the other. */
  function FixGroups(data: map<string, seq<string>>, name: string, groups: seq<Group>): Result<map<string, seq<string>>, FixError>
  {
    if groups == [] then Ok(data)
    else
      match FixGroups(data, name, groups[..|groups| - 1])
      case Err(e) => Err(e)
      case Ok(d) =>
        var g := groups[|groups| - 1];
        if g.variants == [] then Err(EmptyGroup(name, g.baseForm))
        else if name !in d then Err(MissingColumn(name))
        else Ok(d[name := Replace(d[name], VariantNames(g), MostCommonVariant(g))])
  }

  /** The cells after rewriting every reported column, in report order. */
  function FixColumns(data: map<string, seq<string>>, cols: seq<ColumnReport>): Result<map<string, seq<string>>, FixError>
  {
    if cols == [] then Ok(data)
    else
      match FixColumns(data, cols[..|cols| - 1])
      case Err(e) => Err(e)
      case Ok(d) => FixGroups(d, cols[|cols| - 1].name, cols[|cols| - 1].groups)
  }

  /*
   * What the fix does to one cell
   */

  /** Groups the fix can rewrite without interference: none empty, no variant in two of them. */
  ghost predicate SeparateGroups(groups: seq<Group>)
  {
    && (forall j :: 0 <= j < |groups| ==> groups[j].variants != [])
    && (forall j, k, v :: 0 <= j < k < |groups| && v in VariantNames(groups[j]) ==> v !in VariantNames(groups[k]))
  }

  /** The value a cell holding `x` ends with: its group's most common variant, or `x` itself. */
  function Canonical(groups: seq<Group>, x: string): string
    requires forall j :: 0 <= j < |groups| ==> groups[j].variants != []
  {
    if groups == [] then x
    else
      var g := groups[|groups| - 1];
      if x in VariantNames(g) then MostCommonVariant(g) else Canonical(groups[..|groups| - 1], x)
  }

  /** A column with every cell replaced by its canonical value. */
  function CanonicalColumn(col: seq<string>, groups: seq<Group>): seq<string>
    requires forall j :: 0 <= j < |groups| ==> groups[j].variants != []
  {
    seq(|col|, r requires 0 <= r < |col| => Canonical(groups, col[r]))
  }

  /** A report the fix applies cleanly to `data`: each column once, present, with separate groups. */
  ghost predicate FixableReport(data: map<string, seq<string>>, cols: seq<ColumnReport>)
  {
    && NoDup(ColumnNames(cols))
    && (forall i :: 0 <= i < |cols| ==> cols[i].name in data && SeparateGroups(cols[i].groups))
  }

  /*
   * Lemmas
   */

  lemma MostCommonIsVariant(g: Group)
    requires g.variants != []
    ensures MostCommonVariant(g) in VariantNames(g)
  {
    assert VariantNames(g)[MostCommonIndex(g.variants)] == MostCommonVariant(g);
  }

  /** A value outside a set of variants keeps its canonical value outside it, when no group meets that set. */
  lemma {:induction false} CanonicalAvoids(groups: seq<Group>, x: string, vs: seq<string>)
    requires forall j :: 0 <= j < |groups| ==> groups[j].variants != []
    requires forall j, v :: 0 <= j < |groups| && v in VariantNames(groups[j]) ==> v !in vs
    ensures Canonical(groups, x) in vs <==> x in vs
    decreases |groups|
  {
    if groups != [] {
      var g := groups[|groups| - 1];
      if x in VariantNames(g) {
        MostCommonIsVariant(g);
      } else {
        CanonicalAvoids(groups[..|groups| - 1], x, vs);
      }
    }
  }

  /** A variant of a group ends as that group's most common variant. */
  lemma {:induction false} CanonicalOfMember(groups: seq<Group>, j: nat, x: string)
    requires SeparateGroups(groups)
    requires j < |groups| && x in VariantNames(groups[j])
    ensures Canonical(groups, x) == MostCommonVariant(groups[j])
    decreases |groups|
  {
    var init := groups[..|groups| - 1];
    if j < |groups| - 1 {
      assert x !in VariantNames(groups[|groups| - 1]);
      assert init[j] == groups[j];
      CanonicalOfMember(init, j, x);
    }
  }

  /** A value in no group ends unchanged. */
  lemma {:induction false} CanonicalOfNonMember(groups: seq<Group>, x: string)
    requires forall j :: 0 <= j < |groups| ==> groups[j].variants != []
    requires forall j :: 0 <= j < |groups| ==> x !in VariantNames(groups[j])
    ensures Canonical(groups, x) == x
    decreases |groups|
  {
    if groups != [] {
      assert x !in VariantNames(groups[|groups| - 1]);
      CanonicalOfNonMember(groups[..|groups| - 1], x);
    }
  }

  /** Rewriting separate groups one after the other sends every cell to its canonical value. */
  lemma {:induction false} FixGroupsCanonical(data: map<string, seq<string>>, name: string, groups: seq<Group>)
    requires name in data && SeparateGroups(groups)
    ensures FixGroups(data, name, groups) == Ok(data[name := CanonicalColumn(data[name], groups)])
    decreases |groups|
  {
    var col := data[name];
    if groups == [] {
      assert CanonicalColumn(col, groups) == col;
      assert data[name := col] == data;
    } else {
      var init := groups[..|groups| - 1];
      var g := groups[|groups| - 1];
      assert SeparateGroups(init) by {
        assert forall j :: 0 <= j < |init| ==> init[j] == groups[j];
      }
      FixGroupsCanonical(data, name, init);
      var d := data[name := CanonicalColumn(col, init)];
      var replaced := Replace(d[name], VariantNames(g), MostCommonVariant(g));
      forall r | 0 <= r < |col|
        ensures replaced[r] == Canonical(groups, col[r])
      {
        assert forall j, v :: 0 <= j < |init| && v in VariantNames(init[j]) ==> v !in VariantNames(g) by {
          forall j, v | 0 <= j < |init| && v in VariantNames(init[j]) ensures v !in VariantNames(g) {
            assert init[j] == groups[j];
          }
        }
        CanonicalAvoids(init, col[r], VariantNames(g));
      }
      assert replaced == CanonicalColumn(col, groups);
      assert d[name := replaced] == data[name := CanonicalColumn(col, groups)];
    }
  }

  /** Rewriting every column of a fixable report: reported columns become canonical, the others stay. */
  lemma {:induction false} FixColumnsCanonical(data: map<string, seq<string>>, cols: seq<ColumnReport>)
    requires FixableReport(data, cols)
    ensures FixColumns(data, cols).Ok?
    ensures FixColumns(data, cols).value.Keys == data.Keys
    ensures forall c :: c in data && c !in ColumnNames(cols) ==> FixColumns(data, cols).value[c] == data[c]
    ensures forall i :: 0 <= i < |cols| ==>
              FixColumns(data, cols).value[cols[i].name] == CanonicalColumn(data[cols[i].name], cols[i].groups)
    decreases |cols|
  {
    if cols != [] {
      var init := cols[..|cols| - 1];
      var last := cols[|cols| - 1];
      assert ColumnNames(cols) == ColumnNames(init) + [last.name];
      NoDupSplit(ColumnNames(init), [last.name]);
      assert forall i :: 0 <= i < |init| ==> init[i] == cols[i];
      FixColumnsCanonical(data, init);
      var d := FixColumns(data, init).value;
      assert last.name !in ColumnNames(init);
      assert d[last.name] == data[last.name];
      FixGroupsCanonical(d, last.name, last.groups);
      forall i | 0 <= i < |init|
        ensures FixColumns(data, cols).value[cols[i].name] == CanonicalColumn(data[cols[i].name], cols[i].groups)
      {
        assert ColumnNames(init)[i] == init[i].name;
      }
    }
  }

  /**
   The fix rewrites every cell holding a variant of a reported base form to
   that base form's most common variant (the first of them on a tie in
   share), leaves every other cell as it is, and keeps the shape of the data.
   */
  lemma FixRewritesVariants(data: map<string, seq<string>>, cols: seq<ColumnReport>)
    requires FixableReport(data, cols)
    ensures FixColumns(data, cols).Ok?
    ensures var fixed := FixColumns(data, cols).value;
      && fixed.Keys == data.Keys
      && (forall c :: c in data ==> |fixed[c]| == |data[c]|)
      && (forall c :: c in data && c !in ColumnNames(cols) ==> fixed[c] == data[c])
      && (forall i, j, r ::
            (0 <= i < |cols| && 0 <= j < |cols[i].groups| && 0 <= r < |data[cols[i].name]| &&
             data[cols[i].name][r] in VariantNames(cols[i].groups[j])) ==>
              fixed[cols[i].name][r] == MostCommonVariant(cols[i].groups[j]))
      && (forall i, r ::
            (0 <= i < |cols| && 0 <= r < |data[cols[i].name]| &&
             forall j :: 0 <= j < |cols[i].groups| ==> data[cols[i].name][r] !in VariantNames(cols[i].groups[j])) ==>
              fixed[cols[i].name][r] == data[cols[i].name][r])
  {
    FixColumnsCanonical(data, cols);
    var fixed := FixColumns(data, cols).value;
    forall c | c in data ensures |fixed[c]| == |data[c]| {
      if c in ColumnNames(cols) {
        var i :| 0 <= i < |cols| && ColumnNames(cols)[i] == c;
      }
    }
    forall i, j, r | 0 <= i < |cols| && 0 <= j < |cols[i].groups| && 0 <= r < |data[cols[i].name]| &&
      data[cols[i].name][r] in VariantNames(cols[i].groups[j])
      ensures fixed[cols[i].name][r] == MostCommonVariant(cols[i].groups[j])
    {
      CanonicalOfMember(cols[i].groups, j, data[cols[i].name][r]);
    }
    forall i, r | 0 <= i < |cols| && 0 <= r < |data[cols[i].name]| &&
      (forall j :: 0 <= j < |cols[i].groups| ==> data[cols[i].name][r] !in VariantNames(cols[i].groups[j]))
      ensures fixed[cols[i].name][r] == data[cols[i].name][r]
    {
      CanonicalOfNonMember(cols[i].groups, data[cols[i].name][r]);
    }
  }

  /** A complete mismatch report has separate groups: distinct base forms share no variant. */
  lemma ReportIsSeparate(col: seq<string>, bf: string -> string, groups: seq<Group>)
    requires IsMismatchReport(col, bf, groups)
    ensures SeparateGroups(groups)
  {
    forall j, k, v | 0 <= j < k < |groups| && v in VariantNames(groups[j])
      ensures v !in VariantNames(groups[k])
    {
      assert IsVariantGroup(col, bf, groups[j]) && IsVariantGroup(col, bf, groups[k]);
      assert BaseForms(groups)[j] != BaseForms(groups)[k];
    }
  }

  /** The value the check reports for a frame can be fixed on that frame's cells. */
  lemma DetectedIsFixable(f: Frame, isString: seq<string> -> bool, bf: string -> string)
    requires f.Valid()
    ensures FixableReport(f.cells, Detect(f, isString, bf).columns)
  {
    var value := Detect(f, isString, bf);
    DetectIsDetection(f, isString, bf);
    forall i | 0 <= i < |value.columns|
      ensures SeparateGroups(value.columns[i].groups)
    {
      ReportIsSeparate(f.cells[value.columns[i].name], bf, value.columns[i].groups);
    }
  }

  /** Two values of a column with the same base form end as the same value. */
  lemma CanonicalMerges(col: seq<string>, bf: string -> string, groups: seq<Group>, x: string, y: string)
    requires IsMismatchReport(col, bf, groups)
    requires x in col && y in col && bf(x) == bf(y)
    ensures SeparateGroups(groups)
    ensures Canonical(groups, x) == Canonical(groups, y)
    ensures bf(Canonical(groups, x)) == bf(x)
  {
    ReportIsSeparate(col, bf, groups);
    if bf(x) in BaseForms(groups) {
      var j :| 0 <= j < |groups| && BaseForms(groups)[j] == bf(x);
      var g := groups[j];
      assert IsVariantGroup(col, bf, g);
      assert x in VariantNames(g) && y in VariantNames(g);
      CanonicalOfMember(groups, j, x);
      CanonicalOfMember(groups, j, y);
      MostCommonIsVariant(g);
    } else {
      assert x == y;
      forall j | 0 <= j < |groups| ensures x !in VariantNames(groups[j]) {
        assert IsVariantGroup(col, bf, groups[j]);
        assert BaseForms(groups)[j] == groups[j].baseForm;
      }
      CanonicalOfNonMember(groups, x);
    }
  }

  /** After the fix, no two distinct values of a reported column share a base form. */
  lemma CanonicalColumnHasNoVariants(col: seq<string>, bf: string -> string, groups: seq<Group>)
    requires IsMismatchReport(col, bf, groups)
    ensures SeparateGroups(groups)
    ensures forall u, w :: u in CanonicalColumn(col, groups) && w in CanonicalColumn(col, groups) && bf(u) == bf(w) ==> u == w
  {
    ReportIsSeparate(col, bf, groups);
    var fixed := CanonicalColumn(col, groups);
    forall u, w | u in fixed && w in fixed && bf(u) == bf(w) ensures u == w {
      var r :| 0 <= r < |fixed| && fixed[r] == u;
      var s :| 0 <= s < |fixed| && fixed[s] == w;
      CanonicalMerges(col, bf, groups, col[r], col[r]);
      CanonicalMerges(col, bf, groups, col[s], col[s]);
      CanonicalMerges(col, bf, groups, col[r], col[s]);
    }
  }

  /** A column with a reported base form has two distinct values sharing it. */
  lemma GroupsHaveTwoVariants(col: seq<string>, bf: string -> string)
    requires ColumnGroups(col, bf) != []
    ensures exists u, w :: u in col && w in col && u != w && bf(u) == bf(w)
  {
    var groups := ColumnGroups(col, bf);
    ColumnGroupsIsReport(col, bf);
    var g := groups[0];
    assert IsVariantGroup(col, bf, g);
    var vs := VariantNames(g);
    assert vs[0] in vs && vs[1] in vs;
    assert vs[0] != vs[1];
  }

  /** A column in which no two distinct values share a base form gets an empty report. */
  lemma NoVariantsNoGroups(col: seq<string>, bf: string -> string)
    requires forall u, w :: u in col && w in col && bf(u) == bf(w) ==> u == w
    ensures ColumnGroups(col, bf) == []
  {
    if ColumnGroups(col, bf) != [] {
      GroupsHaveTwoVariants(col, bf);
    }
  }

  /** The column `c` of the fixed cells holds no two distinct values with one base form. */
  lemma FixedColumnClean(f: Frame, isString: seq<string> -> bool, bf: string -> string, c: string)
    requires f.Valid()
    requires FixableReport(f.cells, Detect(f, isString, bf).columns)
    requires c in f.cells && c in ColumnNames(Detect(f, isString, bf).columns)
    ensures FixColumns(f.cells, Detect(f, isString, bf).columns).Ok?
    ensures var cells := FixColumns(f.cells, Detect(f, isString, bf).columns).value;
      c in cells && ColumnGroups(cells[c], bf) == []
  {
    var value := Detect(f, isString, bf);
    DetectIsDetection(f, isString, bf);
    FixColumnsCanonical(f.cells, value.columns);
    var cells := FixColumns(f.cells, value.columns).value;
    var k :| 0 <= k < |value.columns| && ColumnNames(value.columns)[k] == c;
    var report := value.columns[k];
    assert IsMismatchReport(f.cells[c], bf, report.groups);
    CanonicalColumnHasNoVariants(f.cells[c], bf, report.groups);
    assert cells[c] == CanonicalColumn(f.cells[c], report.groups);
    NoVariantsNoGroups(cells[c], bf);
  }

  /**
   Fixing a frame with the value the check reports for it succeeds, keeps the
   frame well formed, and running the check again finds no variants at all.
   */
  lemma FixLeavesNoVariants(f: Frame, isString: seq<string> -> bool, bf: string -> string)
    requires f.Valid()
    ensures FixColumns(f.cells, Detect(f, isString, bf).columns).Ok?
    ensures var fixed := Frame(f.rows, f.names, FixColumns(f.cells, Detect(f, isString, bf).columns).value);
      && fixed.Valid()
      && forall i :: 0 <= i < |Detect(fixed, isString, bf).columns| ==> Detect(fixed, isString, bf).columns[i].groups == []
  {
    var value := Detect(f, isString, bf);
    DetectIsDetection(f, isString, bf);
    DetectedIsFixable(f, isString, bf);
    FixRewritesVariants(f.cells, value.columns);
    var cells := FixColumns(f.cells, value.columns).value;
    var fixed := Frame(f.rows, f.names, cells);
    assert fixed.Valid();
    var after := Detect(fixed, isString, bf);
    ColumnsSound(fixed, fixed.names, isString, bf);
    forall i | 0 <= i < |after.columns| ensures after.columns[i].groups == []
    {
      var c := after.columns[i].name;
      assert ColumnNames(after.columns)[i] == c;
      assert isString(cells[c]);
      if c !in ColumnNames(value.columns) {
        assert false;
      }
      FixedColumnClean(f, isString, bf, c);
    }
  }

  /*
   * The fix
   */

  /** A dataset object; the fix replaces it in the context rather than changing it. */
  class Dataset {
    var frame: Frame

    constructor (frame: Frame)
      ensures this.frame == frame
    {
      this.frame := frame;
    }
  }

  /** The run context: the datasets by kind. */
  class Context {
    var datasets: map<DatasetKind, Dataset>

    constructor (datasets: map<DatasetKind, Dataset>)
      ensures this.datasets == datasets
    {
      this.datasets := datasets;
    }
  }

  lemma {:induction false} FixGroupsErrSticks(data: map<string, seq<string>>, name: string, groups: seq<Group>, j: nat)
    requires j <= |groups| && FixGroups(data, name, groups[..j]).Err?
    ensures FixGroups(data, name, groups) == FixGroups(data, name, groups[..j])
    decreases |groups| - j
  {
    if j < |groups| {
      assert groups[..j + 1][..j] == groups[..j];
      FixGroupsErrSticks(data, name, groups, j + 1);
    } else {
      assert groups[..j] == groups;
    }
  }

  lemma {:induction false} FixColumnsErrSticks(data: map<string, seq<string>>, cols: seq<ColumnReport>, i: nat)
    requires i <= |cols| && FixColumns(data, cols[..i]).Err?
    ensures FixColumns(data, cols) == FixColumns(data, cols[..i])
    decreases |cols| - i
  {
    if i < |cols| {
      assert cols[..i + 1][..i] == cols[..i];
      FixColumnsErrSticks(data, cols, i + 1);
    } else {
      assert cols[..i] == cols;
    }
  }

  /** The rewriting of one reported column of `fix_logic`, base form by base form. */
  method FixColumn(data: map<string, seq<string>>, col: ColumnReport) returns (res: Result<map<string, seq<string>>, FixError>)
    ensures res == FixGroups(data, col.name, col.groups)
  {
    var current := data;
    var j := 0;
    while j < |col.groups|
      invariant 0 <= j <= |col.groups|
      invariant FixGroups(data, col.name, col.groups[..j]) == Ok(current)
    {
      assert col.groups[..j + 1][..j] == col.groups[..j];
      var details := col.groups[j];
      if details.variants == [] {
        FixGroupsErrSticks(data, col.name, col.groups, j + 1);
        return Err(EmptyGroup(col.name, details.baseForm));
      }
      var mostCommonVariant := MostCommonVariant(details);
      var allVariants := VariantNames(details);
      if col.name !in current {
        FixGroupsErrSticks(data, col.name, col.groups, j + 1);
        return Err(MissingColumn(col.name));
      }
      current := current[col.name := Replace(current[col.name], allVariants, mostCommonVariant)];
      j := j + 1;
    }
    assert col.groups[..j] == col.groups;
    res := Ok(current);
  }

  /** The column loop of `fix_logic`. */
  method FixAllColumns(data: map<string, seq<string>>, value: CheckValue) returns (res: Result<map<string, seq<string>>, FixError>)
    ensures res == FixColumns(data, value.columns)
  {
    var current := data;
    var i := 0;
    while i < |value.columns|
      invariant 0 <= i <= |value.columns|
      invariant FixColumns(data, value.columns[..i]) == Ok(current)
    {
      assert value.columns[..i + 1][..i] == value.columns[..i];
      var step := FixColumn(current, value.columns[i]);
      if step.Err? {
        FixColumnsErrSticks(data, value.columns, i + 1);
        return step;
      }
      current := step.value;
      i := i + 1;
    }
    assert value.columns[..i] == value.columns;
    res := Ok(current);
  }

  /**
   `fix_logic`: rewrites a copy of the cells of the dataset of kind `kind`
   and puts a new dataset holding them into the context. On an error nothing
   in the context changes; the old dataset object is never changed, so every
   other reference to it still sees the unfixed data.
   */
  method FixLogic(context: Context, value: CheckValue, kind: DatasetKind) returns (outcome: Result<(), FixError>)
    modifies context
    ensures kind !in old(context.datasets) ==>
      outcome == Err(MissingDataset(kind)) && context.datasets == old(context.datasets)
    ensures kind in old(context.datasets) && FixColumns(old(context.datasets[kind].frame.cells), value.columns).Err? ==>
      && outcome == Err(FixColumns(old(context.datasets[kind].frame.cells), value.columns).error)
      && context.datasets == old(context.datasets)
    ensures kind in old(context.datasets) && FixColumns(old(context.datasets[kind].frame.cells), value.columns).Ok? ==>
      && outcome == Ok(())
      && kind in context.datasets
      && fresh(context.datasets[kind])
      && context.datasets[kind].frame == old(context.datasets[kind].frame).(cells := FixColumns(old(context.datasets[kind].frame.cells), value.columns).value)
      && context.datasets == old(context.datasets)[kind := context.datasets[kind]]
  {
    if kind !in context.datasets {
      return Err(MissingDataset(kind));
    }
    var dataset := context.datasets[kind];
    var data := dataset.frame.cells;
    var fixedCells := FixAllColumns(data, value);
    if fixedCells.Err? {
      return Err(fixedCells.error);
    }
    var fixed := new Dataset(dataset.frame.(cells := fixedCells.value));
    context.datasets := context.datasets[kind := fixed];
    outcome := Ok(());
  }
}

=== FILE: reduction.dfy ===
/**
 The per-column score of the check (`StringMismatch.reduce_output`): the
 share of the sampled rows whose value is a reported variant.
 */
module Reduction {
  import opened Seqs
  import opened MismatchReport
  import opened Detection

  /** `reduce_output` divides by `n_samples`; Python raises when it is zero. */
  datatype ReduceError = DivisionByZero

  /** Sum of the counts of a list of variant records. */
  function RecordsCount(rs: seq<VariantRecord>): nat
  {
    if rs == [] then 0 else RecordsCount(rs[..|rs| - 1]) + rs[|rs| - 1].count
  }

  /** Sum of the counts of every variant of every base form of a column. */
  function GroupsCount(groups: seq<Group>): nat
  {
    if groups == [] then 0 else GroupsCount(groups[..|groups| - 1]) + RecordsCount(groups[|groups| - 1].variants)
  }

  /**
   The per-column mismatch ratio, in column order: the summed variant counts
   of the column divided by `n_samples`. A value without columns gives an
   empty series; a value with columns and no samples fails on the division.
   */
  function ReduceOutput(value: CheckValue): (out: Result<seq<(string, real)>, ReduceError>)
    ensures out.Err? <==> value.columns != [] && value.nSamples == 0
    ensures value.columns == [] ==> out == Ok([])
    ensures out.Ok? ==> |out.value| == |value.columns|
    ensures out.Ok? ==>
      forall i :: 0 <= i < |value.columns| ==> out.value[i].0 == value.columns[i].name && out.value[i].1 >= 0.0
  {
    var cols := value.columns;
    if cols != [] && value.nSamples == 0 then Err(DivisionByZero)
    else Ok(seq(|cols|, i requires 0 <= i < |cols| => (cols[i].name, GroupsCount(cols[i].groups) as real / value.nSamples as real)))
  }

  /*
   * Lemmas
   */

  /** When every record counts its variant's rows, the summed counts are the rows holding one of the variants. */
  lemma {:induction false} RecordsCountIsSumCounts(col: seq<string>, g: Group)
    requires forall k :: 0 <= k < |g.variants| ==> g.variants[k].count == Count(col, g.variants[k].variant)
    ensures RecordsCount(g.variants) == SumCounts(col, VariantNames(g))
    decreases |g.variants|
  {
    if g.variants != [] {
      var g' := Group(g.baseForm, g.variants[..|g.variants| - 1]);
      assert VariantNames(g') == VariantNames(g)[..|VariantNames(g)| - 1];
      RecordsCountIsSumCounts(col, g');
    }
  }

  lemma {:induction false} GroupsCountIsSumCounts(col: seq<string>, bf: string -> string, groups: seq<Group>)
    requires forall j :: 0 <= j < |groups| ==> IsVariantGroup(col, bf, groups[j])
    ensures GroupsCount(groups) == SumCounts(col, AllVariantNames(groups))
    decreases |groups|
  {
    if groups != [] {
      var init := groups[..|groups| - 1];
      var last := groups[|groups| - 1];
      GroupsCountIsSumCounts(col, bf, init);
      RecordsCountIsSumCounts(col, last);
      SumCountsConcat(col, AllVariantNames(init), VariantNames(last));
    }
  }

  /** The variants reported for a column are distinct across all of its base forms. */
  lemma {:induction false} AllVariantNamesDistinct(col: seq<string>, bf: string -> string, groups: seq<Group>)
    requires forall j :: 0 <= j < |groups| ==> IsVariantGroup(col, bf, groups[j])
    requires NoDup(BaseForms(groups))
    ensures NoDup(AllVariantNames(groups))
    ensures forall v :: v in AllVariantNames(groups) ==> bf(v) in BaseForms(groups)
    decreases |groups|
  {
    if groups != [] {
      var init := groups[..|groups| - 1];
      var last := groups[|groups| - 1];
      assert BaseForms(groups) == BaseForms(init) + [last.baseForm];
      NoDupSplit(BaseForms(init), [last.baseForm]);
      AllVariantNamesDistinct(col, bf, init);
      NoDupConcat(AllVariantNames(init), VariantNames(last));
    }
  }

  /** A reported variant group accounts for at least one row. */
  lemma RecordsCountPositive(col: seq<string>, bf: string -> string, g: Group)
    requires IsVariantGroup(col, bf, g)
    ensures RecordsCount(g.variants) >= 1
  {
    var rs := g.variants;
    var r := rs[|rs| - 1];
    assert r.count == Count(col, r.variant);
    assert VariantNames(g)[|rs| - 1] == r.variant;
    assert r.variant in col;
  }

  /** A column with a reported base form has at least one mismatched row. */
  lemma GroupsCountPositive(col: seq<string>, bf: string -> string, groups: seq<Group>)
    requires forall j :: 0 <= j < |groups| ==> IsVariantGroup(col, bf, groups[j])
    requires groups != []
    ensures GroupsCount(groups) >= 1
  {
    RecordsCountPositive(col, bf, groups[|groups| - 1]);
  }

  /** The summed counts of a complete report never exceed the column's length. */
  lemma ReportCountBounded(col: seq<string>, bf: string -> string, groups: seq<Group>)
    requires IsMismatchReport(col, bf, groups)
    ensures GroupsCount(groups) <= |col|
    ensures GroupsCount(groups) == 0 <==> groups == []
  {
    GroupsCountIsSumCounts(col, bf, groups);
    AllVariantNamesDistinct(col, bf, groups);
    SumCountsAtMostLength(col, AllVariantNames(groups));
    if groups != [] {
      GroupsCountPositive(col, bf, groups);
    }
  }

  /** The score of a completely reported column lies in [0, 1] and is zero exactly when nothing is reported. */
  lemma ReportScoreBounded(col: seq<string>, bf: string -> string, groups: seq<Group>)
    requires IsMismatchReport(col, bf, groups)
    requires |col| > 0
    ensures 0.0 <= GroupsCount(groups) as real / |col| as real <= 1.0
    ensures GroupsCount(groups) as real / |col| as real == 0.0 <==> groups == []
  {
    ReportCountBounded(col, bf, groups);
    ShareBounds(GroupsCount(groups), |col|);
  }

  /**
   On a detected value, `reduce_output` fails only for a frame without rows
   that has a string column, and otherwise scores each string column with a
   ratio in [0, 1] that is zero exactly when the column has no variants.
   */
  lemma DetectedScores(f: Frame, isString: seq<string> -> bool, bf: string -> string)
    requires f.Valid()
    ensures var value := Detect(f, isString, bf);
      && (ReduceOutput(value).Err? <==> f.rows == 0 && value.columns != [])
      && (ReduceOutput(value).Ok? ==>
            |ReduceOutput(value).value| == |value.columns| &&
            forall i :: 0 <= i < |value.columns| ==>
              ReduceOutput(value).value[i].0 == value.columns[i].name &&
              0.0 <= ReduceOutput(value).value[i].1 <= 1.0 &&
              (ReduceOutput(value).value[i].1 == 0.0 <==> value.columns[i].groups == []))
  {
    var value := Detect(f, isString, bf);
    DetectIsDetection(f, isString, bf);
    if ReduceOutput(value).Ok? {
      var scores := ReduceOutput(value).value;
      forall i | 0 <= i < |value.columns|
        ensures 0.0 <= scores[i].1 <= 1.0
        ensures scores[i].1 == 0.0 <==> value.columns[i].groups == []
      {
        var c := value.columns[i];
        var col := f.cells[c.name];
        assert IsMismatchReport(col, bf, c.groups);
        assert |col| == f.rows;
        ReportScoreBounded(col, bf, c.groups);
      }
    }
  }
}

=== FILE: report.dfy ===
/**
 The data the string-mismatch check works on and the value it reports.

 A data frame is the already sampled and column-selected table: its column
 names in order, and the cells of each column as strings. The check's value
 mirrors the result dictionary of the check: the number of sampled rows and,
 for every string column in frame order, the base forms that have more than
 one variant, each with one record per variant. Python dictionaries keep
 insertion order, so the nested dictionaries become sequences.
 */
module MismatchReport {
  import opened Seqs

  /** The outcome of an operation that the source may abort with an exception. */
  datatype Result<T, E> = Ok(value: T) | Err(error: E)

  datatype Option<T> = None | Some(value: T)

  /** One observed spelling of a base form, with its number of rows and its share of the rows. */
  datatype VariantRecord = VariantRecord(variant: string, count: nat, percent: real)

  /** A base form and the records of its variants. */
  datatype Group = Group(baseForm: string, variants: seq<VariantRecord>)

  /** The reported base forms of one column. */
  datatype ColumnReport = ColumnReport(name: string, groups: seq<Group>)

  /** The check's value: `n_samples` and the per-column reports. */
  datatype CheckValue = CheckValue(nSamples: nat, columns: seq<ColumnReport>)

  /** A table with `rows` rows whose columns, in order, are `names`. */
  datatype Frame = Frame(rows: nat, names: seq<string>, cells: map<string, seq<string>>)
  {
    ghost predicate Valid()
    {
      && NoDup(names)
      && (forall c :: c in names <==> c in cells)
      && (forall c :: c in cells ==> |cells[c]| == rows)
    }
  }

  /** The variant strings of a group, in record order. */
  function VariantNames(g: Group): (vs: seq<string>)
  {
    seq(|g.variants|, k requires 0 <= k < |g.variants| => g.variants[k].variant)
  }

  /** The column names of a report, in order. */
  function ColumnNames(cols: seq<ColumnReport>): (ns: seq<string>)
  {
    seq(|cols|, i requires 0 <= i < |cols| => cols[i].name)
  }

  /** The base forms of a column report, in order. */
  function BaseForms(groups: seq<Group>): (bs: seq<string>)
  {
    seq(|groups|, j requires 0 <= j < |groups| => groups[j].baseForm)
  }

  /** The variant strings of all groups of a column, group after group. */
  function AllVariantNames(groups: seq<Group>): seq<string>
  {
    if groups == [] then []
    else AllVariantNames(groups[..|groups| - 1]) + VariantNames(groups[|groups| - 1])
  }
}

=== FILE: seqs.dfy ===
/**
 Sequence helpers shared by the string-mismatch model: occurrence counts
 (what a value-count table holds), first-appearance de-duplication (what
 `unique()` returns) and filtering by a key.
 */
module Seqs {

  /** No element occurs twice. */
  predicate NoDup<T(==)>(s: seq<T>)
  {
    forall i, j :: 0 <= i < j < |s| ==> s[i] != s[j]
  }

  /** Number of occurrences of `x` in `s`. */
  function Count<T(==)>(s: seq<T>, x: T): (n: nat)
    ensures n <= |s|
    ensures n > 0 <==> x in s
  {
    if s == [] then 0
    else
      var init := s[..|s| - 1];
      assert s == init + [s[|s| - 1]];
      Count(init, x) + (if s[|s| - 1] == x then 1 else 0)
  }

  /** The distinct elements of `s`, in order of first appearance. */
  function Distinct<T(==,!new)>(s: seq<T>): (d: seq<T>)
    ensures NoDup(d)
    ensures forall x :: x in d <==> x in s
  {
    if s == [] then []
    else
      var init := s[..|s| - 1];
      assert s == init + [s[|s| - 1]];
      var d := Distinct(init);
      if s[|s| - 1] in d then d else d + [s[|s| - 1]]
  }

  /** De-duplicating a sequence without duplicates leaves it as it is. */
  lemma {:induction false} DistinctOfNoDup<T(!new)>(s: seq<T>)
    requires NoDup(s)
    ensures Distinct(s) == s
    decreases |s|
  {
    if s != [] {
      var init := s[..|s| - 1];
      NoDupSplit(init, [s[|s| - 1]]);
      assert init + [s[|s| - 1]] == s;
      DistinctOfNoDup(init);
    }
  }

  /** The elements of `s` whose key is `k`, in their order in `s`. */
  function WithKey<T(==,!new), K(==)>(s: seq<T>, key: T -> K, k: K): (m: seq<T>)
    ensures |m| <= |s|
  {
    if s == [] then []
    else
      var init := s[..|s| - 1];
      var m := WithKey(init, key, k);
      if key(s[|s| - 1]) == k then m + [s[|s| - 1]] else m
  }

  /** `WithKey` keeps exactly the elements whose key is `k`, and no element twice. */
  lemma {:induction false} WithKeyMembers<T(!new), K>(s: seq<T>, key: T -> K, k: K)
    ensures forall x :: x in WithKey(s, key, k) <==> x in s && key(x) == k
    ensures NoDup(s) ==> NoDup(WithKey(s, key, k))
    decreases |s|
  {
    if s != [] {
      var init := s[..|s| - 1];
      assert s == init + [s[|s| - 1]];
      WithKeyMembers(init, key, k);
      if NoDup(s) {
        NoDupSplit(init, [s[|s| - 1]]);
      }
    }
  }

  /** Appending one element extends the selection by that element when its key matches. */
  lemma WithKeySnoc<T(!new), K>(s: seq<T>, x: T, key: T -> K, k: K)
    ensures WithKey(s + [x], key, k) == WithKey(s, key, k) + (if key(x) == k then [x] else [])
  {
    assert (s + [x])[..|s|] == s;
  }

  /** The elements of `s` that satisfy `p`, in their order in `s`. */
  function Filter<T>(s: seq<T>, p: T -> bool): (r: seq<T>)
    ensures |r| <= |s|
    ensures forall k :: 0 <= k < |r| ==> p(r[k])
  {
    if s == [] then []
    else Filter(s[..|s| - 1], p) + (if p(s[|s| - 1]) then [s[|s| - 1]] else [])
  }

  /** The key of every element of `s`, position by position. */
  function Keys<T, K>(s: seq<T>, key: T -> K): (ks: seq<K>)
  {
    seq(|s|, i requires 0 <= i < |s| => key(s[i]))
  }

  /** `s` with at most its first `n` elements kept. */
  function Take<T>(s: seq<T>, n: nat): (t: seq<T>)
    ensures |t| <= n && |t| <= |s|
    ensures |s| <= n ==> t == s
    ensures t == s[..|t|]
  {
    if |s| <= n then s else s[..n]
  }

  /** Appending to a list that is capped at `n` entries keeps the cap. */
  lemma TakeSnoc<T>(s: seq<T>, x: T, n: nat)
    ensures Take(s + [x], n) == if |s| < n then Take(s, n) + [x] else Take(s, n)
  {
    if |s| >= n {
      assert (s + [x])[..n] == s[..n];
    }
  }

  /** Sum of the occurrence counts in `s` of every element of `vs`. */
  function SumCounts<T(==)>(s: seq<T>, vs: seq<T>): nat
  {
    if vs == [] then 0 else SumCounts(s, vs[..|vs| - 1]) + Count(s, vs[|vs| - 1])
  }

  lemma {:induction false} NoDupConcat<T>(a: seq<T>, b: seq<T>)
    requires NoDup(a) && NoDup(b)
    requires forall x :: x in a ==> x !in b
    ensures NoDup(a + b)
  {
    forall i, j | 0 <= i < j < |a + b|
      ensures (a + b)[i] != (a + b)[j]
    {
      if j < |a| {
      } else if i < |a| {
        assert (a + b)[i] in a && (a + b)[j] in b;
      } else {
        assert (a + b)[i] == b[i - |a|] && (a + b)[j] == b[j - |a|];
      }
    }
  }

  lemma NoDupSplit<T>(a: seq<T>, b: seq<T>)
    requires NoDup(a + b)
    ensures NoDup(a) && NoDup(b)
    ensures forall x :: x in a ==> x !in b
  {
    forall i, j | 0 <= i < j < |a| ensures a[i] != a[j] {
      assert a[i] == (a + b)[i] && a[j] == (a + b)[j];
    }
    forall i, j | 0 <= i < j < |b| ensures b[i] != b[j] {
      assert b[i] == (a + b)[|a| + i] && b[j] == (a + b)[|a| + j];
    }
    forall i, j | 0 <= i < |a| && 0 <= j < |b| ensures a[i] != b[j] {
      assert a[i] == (a + b)[i] && b[j] == (a + b)[|a| + j];
    }
  }

  /** A count over a positive total is a share in [0, 1], zero exactly for a zero count. */
  lemma ShareBounds(n: nat, total: nat)
    requires 0 < total && n <= total
    ensures 0.0 <= n as real / total as real <= 1.0
    ensures n as real / total as real == 0.0 <==> n == 0
  {
    assert n as real <= total as real;
  }

  lemma {:induction false} SumCountsConcat<T>(s: seq<T>, a: seq<T>, b: seq<T>)
    ensures SumCounts(s, a + b) == SumCounts(s, a) + SumCounts(s, b)
    decreases |b|
  {
    if b == [] {
      assert a + b == a;
    } else {
      var b' := b[..|b| - 1];
      assert (a + b)[..|a + b| - 1] == a + b';
      SumCountsConcat(s, a, b');
    }
  }

  /** Appending `y` to `s` raises the count of every element of `vs` equal to `y`. */
  lemma {:induction false} SumCountsSnoc<T>(s: seq<T>, y: T, vs: seq<T>)
    ensures SumCounts(s + [y], vs) == SumCounts(s, vs) + Count(vs, y)
    decreases |vs|
  {
    if vs != [] {
      var vs' := vs[..|vs| - 1];
      assert (s + [y])[..|s + [y]| - 1] == s;
      SumCountsSnoc(s, y, vs');
    }
  }

  lemma {:induction false} CountNoDup<T>(vs: seq<T>, y: T)
    requires NoDup(vs)
    ensures Count(vs, y) <= 1
    decreases |vs|
  {
    if vs != [] {
      var vs' := vs[..|vs| - 1];
      assert NoDup(vs');
      CountNoDup(vs', y);
      if vs[|vs| - 1] == y {
        assert y !in vs' by {
          forall i | 0 <= i < |vs'| ensures vs'[i] != y {
            assert vs[i] != vs[|vs| - 1];
          }
        }
      }
    }
  }

  /** Counting the occurrences of distinct values never counts a position twice. */
  lemma {:induction false} SumCountsAtMostLength<T>(s: seq<T>, vs: seq<T>)
    requires NoDup(vs)
    ensures SumCounts(s, vs) <= |s|
    decreases |s|
  {
    if s == [] {
      ZeroCounts(s, vs);
    } else {
      var s' := s[..|s| - 1];
      assert s == s' + [s[|s| - 1]];
      SumCountsAtMostLength(s', vs);
      SumCountsSnoc(s', s[|s| - 1], vs);
      CountNoDup(vs, s[|s| - 1]);
    }
  }

  lemma {:induction false} ZeroCounts<T>(s: seq<T>, vs: seq<T>)
    requires s == []
    ensures SumCounts(s, vs) == 0
    decreases |vs|
  {
    if vs != [] {
      ZeroCounts(s, vs[..|vs| - 1]);
    }
  }
}
